=== FILE: README.md ===
# acmepipe's patch engine, in Dafny

acmepipe runs a command and puts the command's output into the body of an
Acme window. By default it rewrites only the stretches the diff reports as
changed:
1. It diffs the old body against the new output.
2. It turns every hunk header of the diff (`3,5c3,4`, `7a8`, `2d1`) into a pair
   of writes on the window: an address written to the `addr` file, then the
   new lines written to the `data` file.
3. It handles the hunks from the last to the first, so that an edit never
   moves the line numbers of the hunks still to come.

With `-all` it replaces the whole body in one write instead.

This project models that engine:
- `span`, which reads a line range with Go's `strconv.Atoi` semantics;
- `region`, the byte range of a 1-based inclusive line range, with the wrap-around of its 64-bit decrements;
- `applyRegion`, `apply` and `write`;
- `patchOutput` and `writeOutput`, with their empty-output and no-change guards;
- the choice between them made in `cli`.

Acme is replaced by an in-memory window (`Acme.Window`) that does three things:
- it resolves the three address forms acmepipe writes against the current body;
- it rejects an address naming a line the body does not have;
- it records every call in a trace (`Acme.Run`).

The diff tool is not run. Its output is an input to the model.

The main theorem is `Correctness.PatchTurnsOldIntoNew`. It assumes:
- the old text and the new text are lists of complete lines;
- the hunks are well formed, ascending and non-overlapping;
- the stretches between the hunks are equal in both texts.

Under those assumptions, applying the diff listing, last line first, to a window
that holds the old text leaves the window holding the new text. No call is
rejected, and the trace holds exactly two calls per hunk plus the optional
undo-grouping message.

Modules and files:
- `wrappers.dfy`: `Option`.
- `text.dfy`: bytes, newline counting, lines, Go's `strings.Split` and `strings.IndexAny`.
- `numbers.dfy`: `strconv.Atoi` on a 64-bit platform, and decimal printing.
- `regions.dfy`: the line range as a specification (`Region`), `region` with Go's 64-bit ints (`GoRegion`), and the two-loop scan (`RegionScan`).
- `diff.dfy`: hunks (the source's `thing`), `span`, and what `applyRegion` makes of a line (`Classify`).
- `acme.dfy`: the window, address resolution, and the trace of calls.
- `patch.dfy`: `write`, `applyRegion`, `apply`, `patchOutput`, `writeOutput` and the mode choice in `cli`.
- `correctness.dfy`: diff scripts and the end-to-end theorems.
- `scenarios.dfy`: worked change, add and delete patches, plus two odd inputs:
  - a header whose numbers do not parse;
  - diff's "\ No newline at end of file" marker.

## Model

| member | source | states |
|---|---|---|
| Text.Split | acme/acmepipe/main.go:208 | splitting the diff at newlines gives at least one piece; no piece holds a newline; joining the pieces with newlines gives the diff back |
| Text.SplitTerminated | acme/acmepipe/main.go:208 | splitting lines that are each followed by a newline gives those lines and one empty last piece, so the loop starts at an empty line |
| Text.IndexAny | acme/acmepipe/main.go:225 | the index found is the first position holding one of the characters; None exactly when no position holds one |
| Numbers.Atoi | acme/acmepipe/main.go:249-264 | a parsed value lies in the 64-bit int range and the text held at least one digit |
| Numbers.AtoiSyntax | acme/acmepipe/main.go:249-264 | only an optional '+' or '-' followed by one or more digits and nothing else parses |
| Numbers.AtoiDigits | acme/acmepipe/main.go:249-264 | digits alone, leading zeros allowed, parse to their decimal value when it fits an int, and are a range error when it does not |
| Numbers.Dec | acme/acmepipe/main.go:267-272 | Go's `x--` on a 64-bit int: one less, except that the smallest int wraps round to the largest |
| Numbers.AtoiItoa | acme/acmepipe/main.go:249-264 | Atoi reads back every non-negative int printed in decimal |
| Numbers.AtoiNegative | acme/acmepipe/main.go:249-264 | a leading minus sign negates the value, down to the smallest 64-bit int |
| Numbers.AtoiRejects | acme/acmepipe/main.go:249-264 | the empty text, a lone sign, a trailing comma and a leading space are all errors |
| Numbers.AtoiOverflows | acme/acmepipe/main.go:249-264 | one past the largest int is a range error |
| Diff.Span | acme/acmepipe/main.go:249-264 | both numbers are Go ints; text without a comma gives a range with equal ends; any range other than (0, 0) was read from text holding a digit |
| Diff.SpanSyntax | acme/acmepipe/main.go:249-264 | any range other than (0, 0) comes from text that is one int with no comma, or an int on each side of its first comma; a part that is not an int (optional sign, then digits only) gives (0, 0) |
| Diff.SpanRangeText | acme/acmepipe/main.go:249-264 | span reads back both forms a diff tool prints: "N" as (N, N) and "N,M" as (N, M) |
| Diff.SpanExamples | acme/acmepipe/main.go:249-264 | "12" is (12, 12) and "3,5" is (3, 5); "3,", "x" and "1,2,3" all give (0, 0) |
| Diff.Classify | acme/acmepipe/main.go:218-233 | a line is blank iff it is empty; a detail iff it starts with '<', '-' or '>'; unparsable iff it is neither and holds none of 'a', 'c', 'd'; a header carries the spans on each side of its first operation letter |
| Diff.ClassifyAt | acme/acmepipe/main.go:225-233 | non-empty text that does not start with '<', '-' or '>' and holds no operation letter, then an operation letter, then more text, reads as a header with the spans of the two texts and that letter's operation |
| Diff.ClassifyRender | acme/acmepipe/main.go:218-233 | every header a diff tool prints is read back as exactly that hunk, and holds no newline |
| Regions.NewlineEndMeaning | acme/acmepipe/main.go:266-283 | the k-th newline end is just past a newline, with exactly k newlines before it; it is the end of the text when there are fewer than k newlines |
| Regions.Region | acme/acmepipe/main.go:266-283 | the line range start..end is no longer than the text, and empty when end < start |
| Regions.RegionNewlines | acme/acmepipe/main.go:266-283 | when the text has all the lines asked for, the range holds exactly one newline per line and ends in one |
| Regions.GoRegion | acme/acmepipe/main.go:266-283 | with Go's wrapping 64-bit decrements, `region` returns the line range start..end whenever no decrement wraps |
| Regions.RegionScan | acme/acmepipe/main.go:266-283 | the two-loop scan, with wrapping decrements, returns GoRegion; when no decrement wraps, the bytes from the end of line start-1 to the end of line `end` |
| Regions.SkipLines | acme/acmepipe/main.go:267-275 | the first loop stops just past newline number Dec(start) (start-1, or the largest int when start is the smallest), having taken off `end`, with wrap-around, every newline it passed |
| Regions.TakeLines | acme/acmepipe/main.go:276-282 | the second loop stops just past the e-th newline after where it started, or at the end of the text |
| Regions.RegionOfLines | acme/acmepipe/main.go:266-283 | on a text of complete lines, the region of lines start..end is exactly those lines |
| Regions.RegionLine | acme/acmepipe/main.go:266-283 | on complete lines followed by a newline-free tail, region(k, k) is line k with its newline, and the tail one past the last complete line |
| Regions.RegionWhole | acme/acmepipe/main.go:266-283 | region(1, n) is the whole text once n is at least the line count |
| Acme.Resolve | acme/acmepipe/main.go:232-245 | an address that resolves selects a byte range inside the body |
| Acme.Issue | acme/acmepipe/main.go:285-291 | every call is recorded; a ctl message never fails; an address fails exactly when it does not resolve, and leaves the body alone |
| Patch.Write | acme/acmepipe/main.go:285-291 | the address is written first; when it is rejected, no data call follows; otherwise the data replaces the addressed bytes; no ctl message is added |
| Patch.HunkWrite | acme/acmepipe/main.go:232-245 | an add addresses the end of old line oldStart, a change or delete old lines oldStart..oldEnd; add and change write region(newStart, newEnd) of the new text, delete writes nothing |
| Patch.ApplyRegion | acme/acmepipe/main.go:218-247 | blank, detail and unparsable lines make no call; a header first writes its operation's address; if the window rejects it, that is the only call and the window is unchanged; otherwise the operation's data follows and replaces the addressed bytes |
| Patch.ApplyLines | acme/acmepipe/main.go:208-215 | handling lines only appends address and data calls to the trace and never a ctl message |
| Patch.ApplyLinesAppend | acme/acmepipe/main.go:208-215 | the lines are handled last first: the later lines are all handled before any earlier one, and the first failure stops the loop |
| Patch.ApplyLinesInert | acme/acmepipe/main.go:218-229 | lines that are not headers change nothing |
| Patch.Apply | acme/acmepipe/main.go:199-216 | an empty diff makes no call; otherwise the undo-grouping message comes first unless -mark is set, and no ctl message follows |
| Patch.PatchOutput | acme/acmepipe/main.go:165-188 | empty output makes no call at all; otherwise the diff is applied with the output as the new text |
| Patch.WriteOutput | acme/acmepipe/main.go:135-158 | no call is made iff the output is empty or equals the body; otherwise the trace is one whole-body address and one data write, and the body becomes the output |
| Patch.Replace | acme/acmepipe/main.go:97-100 | empty output changes nothing in either mode; -all with unchanged output and the patch with an empty diff make no call |
| Correctness.ResolveOnLines | acme/acmepipe/main.go:230-246 | on a body of complete lines, a hunk's address selects exactly the bytes of its old lines (the empty range after line oldStart for an add) |
| Correctness.HunkStep | acme/acmepipe/main.go:230-246 | one header on a body of complete lines makes two accepted calls and splices the hunk's new lines over its old ones |
| Correctness.PatchTurnsOldIntoNew | acme/acmepipe/main.go:199-247 | a diff listing of well-formed, ascending, non-overlapping hunks, applied last first, turns the old text into the new one with no call rejected and two calls per hunk |
| Correctness.PatchOutputTurnsOldIntoNew | acme/acmepipe/main.go:165-188 | through patchOutput the body ends up as the new text, except that an empty new text leaves the old one |
| Correctness.ReplaceTurnsOldIntoNew | acme/acmepipe/main.go:97-100 | -all and the patch agree: both leave the new text in the window (the old one when the new one is empty) |
| Correctness.ApplyTerminated | acme/acmepipe/main.go:199-215 | applying newline-terminated diff text is the undo-grouping message followed by the loop over its lines |
| Correctness.ListingHasNoNewline | acme/acmepipe/main.go:208 | no line of a diff listing holds a newline, so splitting its text gives the listing back followed by one empty piece (Text.SplitTerminated) |
| Scenarios.ChangeScenario | acme/acmepipe/main.go:199-247 | "2c2" on a\nb\nc\n gives the calls [undo group, address 2,2, data "X\n"] and the body a\nX\nc\n |
| Scenarios.AddScenario | acme/acmepipe/main.go:199-247 | "2a3" on a\nb\n gives the calls [undo group, address 2+#0, data "c\n"] and the body a\nb\nc\n |
| Scenarios.DeleteScenario | acme/acmepipe/main.go:199-247 | "2d1" on a\nb\nc\n gives the calls [undo group, address 2,2, empty data] and the body a\nc\n |
| Scenarios.MalformedHeaderStillWrites | acme/acmepipe/main.go:226-238 | "x,3c1,2" is not skipped: its old range reads as (0, 0), so on any body the new lines are written in front of the whole body |
| Scenarios.RegionEndWraps | acme/acmepipe/main.go:266-283 | lines 2..MinInt of a\nb\nc\n: the range is empty, but `end--` wraps and `region` returns b\nc\n |
| Scenarios.RegionStartWraps | acme/acmepipe/main.go:266-283 | lines MinInt..2 of a\nb\nc\n: the range is a\nb\n, but `start--` wraps and `region` returns nothing |
| Scenarios.MarkerWritesNothing | acme/acmepipe/main.go:225-235 | diff's "\ No newline at end of file" reads as an add after line 0 with no data: it makes two calls and leaves the body as it was |

## Left out

- Opening the window, reading the body and closing the files (lines 82-89, 103-111): these are 9P file I/O.
  The model starts from a window that already holds the body.
- Running the command, reading stdin, the exit status and the process exit code (lines 65-79, 90-96, 113-125): these are process I/O.
  The model takes the command's output as an input.
- writeErrors and the stderr of the command and of the diff tool (lines 90-93, 127-133, 183-186): the text written to the errors file is not modelled.
  Writing it can fail, and then cli returns before any output is written (lines 91-93) and patchOutput before any patch call (lines 184-186).
  The model assumes that write succeeds.
- Running `9 diff` on two temporary files (lines 169-182, 190-197): external tool and file I/O.
  The diff text is a parameter of `Patch.PatchOutput`, `Patch.Replace` and `Patch.Apply`.
- The log line for an unparsable diff line (line 227): logging only; such a line makes no call, as modelled.
- Patch.WriteOutput: does not model saving dot before the write and restoring it after (lines 142-152, 159-162).
  The in-memory window has no dot.
  Restoring it writes the old dot's byte address `#q0,#q1`, which acme can reject when the new body is shorter than the old dot.
  writeOutput then returns an error after the body has already changed.
  The contract's `!r.failed` holds only because that last address call is left out.
- Acme.Resolve: models only the three address forms acmepipe writes, not acme's address language.
  A line address outside 0..line count is rejected.
- Acme.Issue: ctl messages and data writes never fail in the in-memory window.
  Real file-write errors are I/O and are not modelled.
- Numbers.Atoi: Go's `int` is taken to be 64 bits wide.
- Correctness.PatchTurnsOldIntoNew: assumes both texts are made of complete, newline-terminated lines.
  It also assumes that hunks touching the last line do not carry diff's "\ No newline at end of file" marker.
  `Scenarios.MarkerWritesNothing` shows what that marker does on its own.
- Correctness.PatchOutputTurnsOldIntoNew: assumes both texts are made of complete, newline-terminated lines, as PatchTurnsOldIntoNew does.
- Correctness.ReplaceTurnsOldIntoNew: assumes both texts are made of complete, newline-terminated lines, as PatchTurnsOldIntoNew does.
  Its -all half also leaves out writeOutput's restore of dot, whose address call can fail after the body has changed (see Patch.WriteOutput).
- The unused `thing` struct (lines 49-53) is modelled as `Diff.Hunk`, which the header parse produces.
- The usage message and flag parsing (lines 55-63, 66-69): the -all and -mark flags are the parameters `all` and `mark`.

## Malformed headers

A hunk header whose numbers do not parse is still written:
- `span` returns (0, 0) when either number does not parse (lines 252-262);
- `applyRegion` calls `write` with whatever `span` returned (lines 230-245).

So "x,3c1,2" writes the new lines 1..2 over lines 0..0, which is the empty stretch before line 1.
`Scenarios.MalformedHeaderStillWrites` proves this: the new lines end up in front of the whole body.

=== FILE: acme.dfy ===
/**
 * The window the patch is written into, seen through the two files acmepipe
 * uses: `addr` (set the address) and `data` (replace the addressed bytes),
 * plus `ctl` messages. Every call made is recorded in a trace.
 *
 * This is an in-memory stand-in for acme: line addresses resolve against the
 * current body the way acme's line addresses do for the forms used here, an
 * address naming a line the body does not have is rejected, and `ctl`
 * messages and data writes always succeed.
 */
module Acme {
  import opened Wrappers
  import opened Text
  import opened Regions

  /** The address forms acmepipe writes. */
  datatype Address =
    | Lines(first: int, last: int)   // "first,last": line first through line last
    | AfterLine(line: int)           // "line+#0": the empty range at the end of a line
    | Everything                     // ",": the whole body

  datatype Call = Ctl(message: string) | Addr(address: Address) | Data(bytes: seq<byte>)

  /** The body, and the address [q0, q1) the next data write replaces. */
  datatype Window = Window(body: seq<byte>, q0: nat, q1: nat)

  /** Line 0 is the empty string before the first line. */
  predicate LineExists(body: seq<byte>, n: int)
  {
    0 <= n <= LineCount(body)
  }

  /** The byte range an address selects in the current body, if it names lines the body has. */
  function Resolve(body: seq<byte>, a: Address): (r: Option<(nat, nat)>)
    ensures r.Some? ==> r.value.0 <= r.value.1 <= |body|
  {
    match a
    case Everything => Some((0, |body|))
    case AfterLine(n) =>
      if LineExists(body, n) then Some((NewlineEnd(body, n), NewlineEnd(body, n))) else None
    case Lines(n1, n2) =>
      if LineExists(body, n1) && LineExists(body, n2) && NewlineEnd(body, n1 - 1) <= NewlineEnd(body, n2)
      then Some((NewlineEnd(body, n1 - 1), NewlineEnd(body, n2)))
      else None
  }

  /** Replace body[q0..q1] with `data`. */
  function Splice(body: seq<byte>, q0: nat, q1: nat, data: seq<byte>): (r: seq<byte>)
    requires q0 <= q1 <= |body|
    ensures |r| == |body| - (q1 - q0) + |data|
    ensures r[..q0] == body[..q0] && r[q0..q0 + |data|] == data && r[q0 + |data|..] == body[q1..]
  {
    body[..q0] + data + body[q1..]
  }

  /** One call on the window; None when the window rejects it. */
  function Perform(w: Window, c: Call): Option<Window>
  {
    match c
    case Ctl(_) => Some(w)
    case Addr(a) =>
      (match Resolve(w.body, a)
       case None => None
       case Some(q) => Some(Window(w.body, q.0, q.1)))
    case Data(bytes) =>
      if w.q0 <= w.q1 <= |w.body|
      then Some(Window(Splice(w.body, w.q0, w.q1, bytes), w.q0 + |bytes|, w.q0 + |bytes|))
      else None
  }

  /** The calls made so far, the window they left, and whether the last one failed. */
  datatype Run = Run(trace: seq<Call>, win: Window, failed: bool)

  /** `later` continues `earlier` with address and data calls only. */
  predicate EditsAfter(earlier: seq<Call>, later: seq<Call>)
  {
    && |earlier| <= |later|
    && later[..|earlier|] == earlier
    && forall i :: |earlier| <= i < |later| ==> !later[i].Ctl?
  }

  lemma {:induction false} EditsAfterTransitive(a: seq<Call>, b: seq<Call>, c: seq<Call>)
    requires EditsAfter(a, b) && EditsAfter(b, c)
    ensures EditsAfter(a, c)
  {
    assert c[..|a|] == c[..|b|][..|a|];
  }

  function Start(w: Window): Run
  {
    Run([], w, false)
  }

  /** Make one call: it is recorded whether or not the window accepts it. */
  function Issue(r: Run, c: Call): (r': Run)
    requires !r.failed
    ensures r'.trace == r.trace + [c]
    ensures r'.failed ==> r'.win == r.win
    ensures c.Ctl? ==> r' == Run(r.trace + [c], r.win, false)
    ensures c.Addr? ==> (r'.failed <==> Resolve(r.win.body, c.address).None?) && r'.win.body == r.win.body
  {
    match Perform(r.win, c)
    case None => Run(r.trace + [c], r.win, true)
    case Some(w) => Run(r.trace + [c], w, false)
  }
}

=== FILE: correctness.dfy ===
/**
 * The patch is right: for a diff whose hunks are in ascending order and
 * describe how the old lines become the new ones, writing the hunks into a
 * window holding the old text, last hunk first and each addressed by its
 * old line numbers, leaves the window holding the new text.
 */
module Correctness {
  import opened Wrappers
  import opened Text
  import opened Numbers
  import opened Regions
  import opened Diff
  import opened Acme
  import opened Patch

  /** The old lines [OldLo, OldHi) a hunk replaces, counted from 0. */
  function OldLo(h: Hunk): int
  {
    if h.op == Add then h.oldStart else h.oldStart - 1
  }

  function OldHi(h: Hunk): int
  {
    if h.op == Add then h.oldStart else h.oldEnd
  }

  /** The new lines [NewLo, NewHi) that take their place, counted from 0. */
  function NewLo(h: Hunk): int
  {
    if h.op == Delete then h.newStart else h.newStart - 1
  }

  function NewHi(h: Hunk): int
  {
    if h.op == Delete then h.newStart else h.newEnd
  }

  /**
   * A hunk as a diff tool prints it: an add follows one old line (0 for the
   * top) and brings at least one new line, a change and a delete cover at
   * least one old line, and a delete names the one new line it follows.
   */
  predicate Shaped(h: Hunk)
  {
    && Printable(h)
    && match h.op
       case Add => h.oldStart == h.oldEnd && 1 <= h.newStart <= h.newEnd
       case Change => 1 <= h.oldStart <= h.oldEnd && 1 <= h.newStart <= h.newEnd
       case Delete => 1 <= h.oldStart <= h.oldEnd && h.newStart == h.newEnd
  }

  /** A hunk as a diff tool prints it for texts of the given line counts. */
  predicate WellFormed(h: Hunk, oldCount: nat, newCount: nat)
  {
    Shaped(h) && OldHi(h) <= oldCount && NewHi(h) <= newCount
  }

  /** Where copying of the old text stops being copied before hunk k (the end, for k == |hs|). */
  function OldStop(before: seq<seq<byte>>, hs: seq<Hunk>, k: nat): int
    requires k <= |hs|
  {
    if k == |hs| then |before| else OldLo(hs[k])
  }

  function NewStop(after: seq<seq<byte>>, hs: seq<Hunk>, k: nat): int
    requires k <= |hs|
  {
    if k == |hs| then |after| else NewLo(hs[k])
  }

  /** The stretch between hunk k-1 and hunk k is the same in both texts. */
  predicate Unchanged(before: seq<seq<byte>>, after: seq<seq<byte>>, hs: seq<Hunk>, k: nat)
    requires k <= |hs|
  {
    var o0 := if k == 0 then 0 else OldHi(hs[k - 1]);
    var n0 := if k == 0 then 0 else NewHi(hs[k - 1]);
    var o1, n1 := OldStop(before, hs, k), NewStop(after, hs, k);
    && 0 <= o0 <= o1 <= |before|
    && 0 <= n0 <= n1 <= |after|
    && before[o0..o1] == after[n0..n1]
  }

  /**
   * `hs` is a diff from `before` to `after`: well-formed hunks, in ascending
   * order without overlap, with equal stretches between them.
   */
  predicate Script(before: seq<seq<byte>>, after: seq<seq<byte>>, hs: seq<Hunk>)
  {
    && (forall k :: 0 <= k < |hs| ==> WellFormed(hs[k], |before|, |after|))
    && (forall k :: 0 <= k <= |hs| ==> Unchanged(before, after, hs, k))
  }

  /** A content line printed after a header: '<', '-' or '>' first. */
  predicate DetailLine(l: string)
  {
    |l| > 0 && l[0] in DetailMarks && '\n' !in l
  }

  /** Detail lines for each hunk. */
  predicate Details(hs: seq<Hunk>, ds: seq<seq<string>>)
  {
    && |ds| == |hs|
    && forall k, i :: 0 <= k < |ds| && 0 <= i < |ds[k]| ==> DetailLine(ds[k][i])
  }

  /** The lines of a diff listing: each hunk's header followed by its detail lines. */
  function Listing(hs: seq<Hunk>, ds: seq<seq<string>>): seq<string>
    requires |ds| == |hs|
    requires forall k :: 0 <= k < |hs| ==> Printable(hs[k])
  {
    if |hs| == 0 then []
    else Listing(hs[..|hs| - 1], ds[..|ds| - 1]) + [Render(hs[|hs| - 1])] + ds[|ds| - 1]
  }

  lemma {:induction false} AllLinesConcat(a: seq<seq<byte>>, b: seq<seq<byte>>)
    requires AllLines(a) && AllLines(b)
    ensures AllLines(a + b)
  {
    assert forall i :: |a| <= i < |a + b| ==> (a + b)[i] == b[i - |a|];
  }

  lemma {:induction false} AllLinesSlice(a: seq<seq<byte>>, i: int, j: int)
    requires AllLines(a) && 0 <= i <= j <= |a|
    ensures AllLines(a[i..j])
  {
    assert forall k :: 0 <= k < j - i ==> a[i..j][k] == a[i + k];
  }

  /** On a body of complete lines, the address of an edit of old lines [OldLo, OldHi). */
  lemma {:induction false} ResolveOnLines(body: seq<seq<byte>>, h: Hunk)
    requires AllLines(body)
    requires 0 <= OldLo(h) <= OldHi(h) <= |body|
    requires h.op != Add ==> OldLo(h) < OldHi(h)
    ensures Resolve(Join(body), HunkAddress(h)) ==
      Some((|Join(body[..OldLo(h)])|, |Join(body[..OldHi(h)])|))
  {
    var lo, hi := OldLo(h), OldHi(h);
    JoinNewlineCount(body);
    NewlineEndOfLines(body, lo);
    NewlineEndOfLines(body, hi);
    if h.op == Add {
      ResolveAfterLine(Join(body), lo);
    } else {
      ResolveLines(Join(body), h.oldStart, h.oldEnd);
    }
  }

  lemma {:induction false} ResolveAfterLine(text: seq<byte>, n: int)
    requires 0 <= n <= LineCount(text)
    ensures Resolve(text, AfterLine(n)) == Some((NewlineEnd(text, n), NewlineEnd(text, n)))
  {
  }

  lemma {:induction false} ResolveLines(text: seq<byte>, n1: int, n2: int)
    requires 1 <= n1 <= n2 <= LineCount(text)
    ensures Resolve(text, Lines(n1, n2)) == Some((NewlineEnd(text, n1 - 1), NewlineEnd(text, n2)))
  {
    NewlineEndMonotonic(text, n1 - 1, n2);
  }

  /**
   * One header, handled on a body of complete lines, makes one address call
   * and one data call, and splices the hunk's new lines over its old ones.
   */
  lemma {:induction false} HunkStep(r: Run, body: seq<seq<byte>>, after: seq<seq<byte>>, h: Hunk)
    requires !r.failed && r.win.body == Join(body)
    requires AllLines(body) && AllLines(after)
    requires WellFormed(h, |body|, |after|)
    ensures var r' := ApplyRegion(r, Render(h), Join(after));
      && !r'.failed
      && r'.win.body == Join(body[..OldLo(h)] + after[NewLo(h)..NewHi(h)] + body[OldHi(h)..])
      && |r'.trace| == |r.trace| + 2
  {
    ClassifyRender(h);
    var (a, data) := HunkWrite(h, Join(after));
    HunkData(h, after);
    ResolveOnLines(body, h);
    SpliceLines(body, OldLo(h), OldHi(h), after[NewLo(h)..NewHi(h)]);
  }

  /** The data written for a hunk is its new lines. */
  lemma {:induction false} HunkData(h: Hunk, after: seq<seq<byte>>)
    requires AllLines(after)
    requires Shaped(h) && NewHi(h) <= |after|
    ensures HunkWrite(h, Join(after)).1 == Join(after[NewLo(h)..NewHi(h)])
  {
    if h.op == Delete {
      assert after[NewLo(h)..NewHi(h)] == [];
    } else {
      RegionOfLines(after, h.newStart, h.newEnd);
    }
  }

  /** Replacing the middle part of a three-way concatenation. */
  lemma {:induction false} SpliceMiddle(x: seq<byte>, y: seq<byte>, z: seq<byte>, m: seq<byte>)
    ensures Splice(x + y + z, |x|, |x| + |y|, m) == x + m + z
  {
    assert (x + y + z)[..|x|] == x;
    assert (x + y + z)[|x| + |y|..] == z;
  }

  /** Writing lines over the bytes of lines [lo, hi) of a body puts them in place of those lines. */
  lemma {:induction false} SpliceLines(body: seq<seq<byte>>, lo: int, hi: int, middle: seq<seq<byte>>)
    requires 0 <= lo <= hi <= |body|
    ensures |Join(body[..lo])| <= |Join(body[..hi])| <= |Join(body)|
    ensures Splice(Join(body), |Join(body[..lo])|, |Join(body[..hi])|, Join(middle)) ==
      Join(body[..lo] + middle + body[hi..])
  {
    var x, y, z := Join(body[..lo]), Join(body[lo..hi]), Join(body[hi..]);
    JoinThreeParts(body, lo, hi);
    SpliceMiddle(x, y, z, Join(middle));
    JoinAppend(body[..lo], middle);
    JoinAppend(body[..lo] + middle, body[hi..]);
  }

  lemma {:induction false} BodyLines(before: seq<seq<byte>>, after: seq<seq<byte>>, o1: int, n1: int)
    requires AllLines(before) && AllLines(after)
    requires 0 <= o1 <= |before| && 0 <= n1 <= |after|
    ensures AllLines(before[..o1] + after[n1..])
  {
    AllLinesSlice(before, 0, o1);
    AllLinesSlice(after, n1, |after|);
    assert after[n1..|after|] == after[n1..];
    assert before[0..o1] == before[..o1];
    AllLinesConcat(before[..o1], after[n1..]);
  }

  /**
   * Writing new lines [nlo, nhi) over old lines [lo, hi) of a body holding
   * old lines up to o1 and new lines from n1 on, where old lines [hi, o1)
   * equal new lines [nhi, n1), leaves old lines up to lo and new lines from
   * nlo on.
   */
  lemma {:induction false} ReplaceStretch(before: seq<seq<byte>>, after: seq<seq<byte>>, o1: int, n1: int, lo: int, hi: int, nlo: int, nhi: int)
    requires 0 <= lo <= hi <= o1 <= |before|
    requires 0 <= nlo <= nhi <= n1 <= |after|
    requires before[hi..o1] == after[nhi..n1]
    ensures var body := before[..o1] + after[n1..];
      body[..lo] + after[nlo..nhi] + body[hi..] == before[..lo] + after[nlo..]
  {
    var body := before[..o1] + after[n1..];
    assert body[..lo] == before[..lo];
    assert body[hi..] == before[hi..o1] + after[n1..];
    assert after[nlo..nhi] + after[nhi..n1] + after[n1..] == after[nlo..];
  }

  /**
   * Handling the listing of hunks 0..k-1 passes over hunk k-1's detail lines
   * and starts with its header.
   */
  lemma {:induction false} ListingLastFirst(hs: seq<Hunk>, ds: seq<seq<string>>, k: nat, r: Run, buf: seq<byte>)
    requires forall j :: 0 <= j < |hs| ==> Printable(hs[j])
    requires Details(hs, ds)
    requires 0 < k <= |hs| && !r.failed
    ensures var r1 := ApplyRegion(r, Render(hs[k - 1]), buf);
      ApplyLines(r, Listing(hs[..k], ds[..k]), buf) ==
        if r1.failed then r1 else ApplyLines(r1, Listing(hs[..k - 1], ds[..k - 1]), buf)
  {
    var header := Render(hs[k - 1]);
    var details := ds[k - 1];
    var earlier := Listing(hs[..k - 1], ds[..k - 1]);
    assert hs[..k][..k - 1] == hs[..k - 1] && ds[..k][..k - 1] == ds[..k - 1];
    assert Listing(hs[..k], ds[..k]) == earlier + [header] + details;
    forall i | 0 <= i < |details| ensures !Classify(details[i]).Header? {
      assert DetailLine(details[i]);
    }
    ApplyLinesInert(r, details, buf);
    ApplyLinesAppend(r, earlier + [header], details, buf);
    ApplyLinesAppend(r, earlier, [header], buf);
    assert [header][..0] == [];
  }

  /**
   * Hunk k-1, handled on a body holding the old text up to hunk k and the new
   * text from there on, leaves the old text up to hunk k-1 and the new text
   * from there on.
   */
  lemma {:induction false} OneHunk(before: seq<seq<byte>>, after: seq<seq<byte>>, hs: seq<Hunk>, k: nat, r: Run)
    requires AllLines(before) && AllLines(after) && Script(before, after, hs)
    requires 0 < k <= |hs|
    requires Unchanged(before, after, hs, k)
    requires !r.failed
    requires r.win.body == Join(before[..OldStop(before, hs, k)] + after[NewStop(after, hs, k)..])
    ensures var r1 := ApplyRegion(r, Render(hs[k - 1]), Join(after));
      && !r1.failed
      && |r1.trace| == |r.trace| + 2
      && Unchanged(before, after, hs, k - 1)
      && r1.win.body == Join(before[..OldStop(before, hs, k - 1)] + after[NewStop(after, hs, k - 1)..])
  {
    var o1, n1 := OldStop(before, hs, k), NewStop(after, hs, k);
    var h := hs[k - 1];
    var body := before[..o1] + after[n1..];
    BodyLines(before, after, o1, n1);
    assert WellFormed(h, |before|, |after|);
    HunkStep(r, body, after, h);
    var lo, hi, nlo, nhi := OldLo(h), OldHi(h), NewLo(h), NewHi(h);
    ReplaceStretch(before, after, o1, n1, lo, hi, nlo, nhi);
    assert Unchanged(before, after, hs, k - 1);
    assert OldStop(before, hs, k - 1) == lo && NewStop(after, hs, k - 1) == nlo;
  }

  /**
   * Handling the listing of hunks 0..k-1, last line first, on a body that holds
   * the old text up to hunk k and the new text from there on, gives the new
   * text with two calls per hunk.
   */
  lemma {:induction false} ApplyHunks(before: seq<seq<byte>>, after: seq<seq<byte>>, hs: seq<Hunk>, ds: seq<seq<string>>, k: nat, r: Run)
    requires AllLines(before) && AllLines(after) && Script(before, after, hs) && Details(hs, ds)
    requires k <= |hs|
    requires Unchanged(before, after, hs, k)
    requires !r.failed
    requires r.win.body == Join(before[..OldStop(before, hs, k)] + after[NewStop(after, hs, k)..])
    ensures var r' := ApplyLines(r, Listing(hs[..k], ds[..k]), Join(after));
      && !r'.failed
      && r'.win.body == Join(after)
      && |r'.trace| == |r.trace| + 2 * k
    decreases k
  {
    var buf := Join(after);
    if k == 0 {
      var o1, n1 := OldStop(before, hs, 0), NewStop(after, hs, 0);
      assert Listing(hs[..k], ds[..k]) == [];
      assert before[..o1] == after[..n1] by {
        assert before[0..o1] == after[0..n1];
      }
      assert after[..n1] + after[n1..] == after;
    } else {
      OneHunk(before, after, hs, k, r);
      ListingLastFirst(hs, ds, k, r, buf);
      var r1 := ApplyRegion(r, Render(hs[k - 1]), buf);
      ApplyHunks(before, after, hs, ds, k - 1, r1);
    }
  }

  /**
   * The patch turns the old text into the new one: given a diff of `before`
   * against `after` (each hunk's header followed by its detail lines), a
   * window holding `before` ends up holding `after`, with no call rejected,
   * one address and one data call per hunk, and one undo-grouping message
   * first unless each change is its own undo step.
   */
  lemma {:induction false} PatchTurnsOldIntoNew(w: Window, before: seq<seq<byte>>, after: seq<seq<byte>>,
                             hs: seq<Hunk>, ds: seq<seq<string>>, mark: bool)
    requires AllLines(before) && AllLines(after) && Script(before, after, hs) && Details(hs, ds)
    requires w.body == Join(before)
    ensures var r := Apply(w, Terminated(Listing(hs, ds)), Join(after), mark);
      && !r.failed
      && r.win.body == Join(after)
      && |r.trace| == 2 * |hs| + (if |hs| > 0 && !mark then 1 else 0)
  {
    if |hs| == 0 {
      assert Unchanged(before, after, hs, 0);
      assert before == after by {
        assert before[0..|before|] == after[0..|after|];
      }
      assert Terminated(Listing(hs, ds)) == "";
    } else {
      SomeHunks(w, before, after, hs, ds, mark);
    }
  }

  /**
   * The same through `patchOutput`: the body ends up holding the new text,
   * except that an empty new text is taken as no output and leaves the old
   * text in place.
   */
  lemma {:induction false} PatchOutputTurnsOldIntoNew(w: Window, before: seq<seq<byte>>, after: seq<seq<byte>>,
                                   hs: seq<Hunk>, ds: seq<seq<string>>, mark: bool)
    requires AllLines(before) && AllLines(after) && Script(before, after, hs) && Details(hs, ds)
    requires w.body == Join(before)
    ensures var r := PatchOutput(w, Terminated(Listing(hs, ds)), Join(after), mark);
      && !r.failed
      && r.win.body == (if |after| == 0 then Join(before) else Join(after))
  {
    if |after| == 0 {
      assert Join(after) == [];
    } else {
      assert IsLine(after[0]);
      assert |Join(after)| >= |after[0]|;
      PatchTurnsOldIntoNew(w, before, after, hs, ds, mark);
    }
  }

  /**
   * Both ways of replacing the body agree: with -all or through the patch, a
   * window holding the old text ends up holding the new one (or keeps the old
   * one when the new one is empty), and no call is rejected.
   */
  lemma {:induction false} ReplaceTurnsOldIntoNew(w: Window, before: seq<seq<byte>>, after: seq<seq<byte>>,
                               hs: seq<Hunk>, ds: seq<seq<string>>, all: bool, mark: bool)
    requires AllLines(before) && AllLines(after) && Script(before, after, hs) && Details(hs, ds)
    requires w.body == Join(before)
    ensures var r := Replace(w, Join(after), Terminated(Listing(hs, ds)), all, mark);
      && !r.failed
      && r.win.body == (if |after| == 0 then Join(before) else Join(after))
  {
    if all {
      if |after| == 0 {
        assert Join(after) == [];
      }
    } else {
      PatchOutputTurnsOldIntoNew(w, before, after, hs, ds, mark);
    }
  }

  lemma {:induction false} SomeHunks(w: Window, before: seq<seq<byte>>, after: seq<seq<byte>>,
                  hs: seq<Hunk>, ds: seq<seq<string>>, mark: bool)
    requires AllLines(before) && AllLines(after) && Script(before, after, hs) && Details(hs, ds)
    requires w.body == Join(before)
    requires |hs| > 0
    ensures var r := Apply(w, Terminated(Listing(hs, ds)), Join(after), mark);
      && !r.failed
      && r.win.body == Join(after)
      && |r.trace| == 2 * |hs| + (if !mark then 1 else 0)
  {
    var lines := Listing(hs, ds);
    var buf := Join(after);
    ListingText(before, after, hs, ds);
    var r0 := if mark then Start(w) else Issue(Start(w), Ctl(UndoGroup));
    ApplyTerminated(w, lines, buf, mark);
    AllHunks(before, after, hs, ds);
    ApplyHunks(before, after, hs, ds, |hs|, r0);
  }

  /** Before any hunk is handled, the body is all old text, and the listing is that of every hunk. */
  lemma {:induction false} AllHunks(before: seq<seq<byte>>, after: seq<seq<byte>>, hs: seq<Hunk>, ds: seq<seq<string>>)
    requires Script(before, after, hs) && Details(hs, ds)
    ensures Unchanged(before, after, hs, |hs|)
    ensures Join(before[..OldStop(before, hs, |hs|)] + after[NewStop(after, hs, |hs|)..]) == Join(before)
    ensures hs[..|hs|] == hs && ds[..|hs|] == ds
  {
    assert before[..|before|] + after[|after|..] == before;
  }

  /** The diff text of a non-empty listing is not empty and splits back into the listing. */
  lemma {:induction false} ListingText(before: seq<seq<byte>>, after: seq<seq<byte>>, hs: seq<Hunk>, ds: seq<seq<string>>)
    requires Script(before, after, hs) && Details(hs, ds)
    requires |hs| > 0
    ensures |Listing(hs, ds)| > 0
    ensures forall i :: 0 <= i < |Listing(hs, ds)| ==> '\n' !in Listing(hs, ds)[i]
  {
    assert forall k :: 0 <= k < |hs| ==> Printable(hs[k]) && Shaped(hs[k]) by {
      assert forall k :: 0 <= k < |hs| ==> WellFormed(hs[k], |before|, |after|);
    }
    ListingHasNoNewline(hs, ds);
  }

  /**
   * Applying newline-terminated lines, at least one of them: the optional
   * undo-grouping message, then the lines last first (the empty piece after
   * the final newline changes nothing).
   */
  lemma {:induction false} ApplyTerminated(w: Window, lines: seq<string>, buf: seq<byte>, mark: bool)
    requires |lines| > 0
    requires forall i :: 0 <= i < |lines| ==> '\n' !in lines[i]
    ensures var r0 := if mark then Start(w) else Issue(Start(w), Ctl(UndoGroup));
      Apply(w, Terminated(lines), buf, mark) == ApplyLines(r0, lines, buf)
  {
    var r0 := if mark then Start(w) else Issue(Start(w), Ctl(UndoGroup));
    SplitTerminated(lines);
    assert |Terminated(lines)| > 0;
    ApplyLinesAppend(r0, lines, [""], buf);
    assert ApplyLines(r0, [""], buf) == r0;
  }

  /**
   * No line of a listing holds a newline, so splitting the diff text gives
   * the lines back followed by one empty piece (`SplitTerminated`).
   */
  lemma {:induction false} ListingHasNoNewline(hs: seq<Hunk>, ds: seq<seq<string>>)
    requires forall k :: 0 <= k < |hs| ==> Printable(hs[k]) && Shaped(hs[k])
    requires Details(hs, ds)
    ensures forall i :: 0 <= i < |Listing(hs, ds)| ==> '\n' !in Listing(hs, ds)[i]
    decreases |hs|
  {
    if |hs| > 0 {
      var n := |hs| - 1;
      var earlier := Listing(hs[..n], ds[..n]);
      ListingHasNoNewline(hs[..n], ds[..n]);
      ClassifyRender(hs[n]);
      NoNewlineAppend(earlier, Render(hs[n]), ds[n]);
    }
  }

  lemma {:induction false} NoNewlineAppend(earlier: seq<string>, header: string, details: seq<string>)
    requires forall i :: 0 <= i < |earlier| ==> '\n' !in earlier[i]
    requires '\n' !in header
    requires forall i :: 0 <= i < |details| ==> DetailLine(details[i])
    ensures forall i :: 0 <= i < |earlier + [header] + details| ==>
      '\n' !in (earlier + [header] + details)[i]
  {
    var all := earlier + [header] + details;
    forall i | 0 <= i < |all| ensures '\n' !in all[i] {
      if i < |earlier| {
        assert all[i] == earlier[i];
      } else if i > |earlier| {
        assert all[i] == details[i - |earlier| - 1];
        assert DetailLine(details[i - |earlier| - 1]);
      }
    }
  }
}

=== FILE: diff.dfy ===
/**
 * The hunk headers of a line-oriented diff ("2c2", "5a6,8", "3,4d2"): the
 * range parser `span` and the classification `applyRegion` makes of every
 * line of diff output.
 */
module Diff {
  import opened Wrappers
  import opened Text
  import opened Numbers

  datatype Op = Add | Change | Delete

  /**
   * One hunk header: the old line range, the operation, and the new line
   * range, all 1-based and inclusive as the diff prints them.
   */
  datatype Hunk = Hunk(oldStart: int, oldEnd: int, op: Op, newStart: int, newEnd: int)

  /** First characters of the detail lines that follow a header. */
  const DetailMarks: set<char> := {'<', '-', '>'}

  /** The operation letters of a header. */
  const OpChars: set<char> := {'a', 'c', 'd'}

  function OpOf(c: char): Op
    requires c in OpChars
  {
    if c == 'a' then Add else if c == 'c' then Change else Delete
  }

  function OpChar(op: Op): (c: char)
    ensures c in OpChars && OpOf(c) == op
  {
    match op
    case Add => 'a'
    case Change => 'c'
    case Delete => 'd'
  }

  /**
   * acmepipe's `span`: "N" is the range (N, N), "N,M" is (N, M) split at the
   * first comma, and when any part is not an int the result is (0, 0).
   */
  function Span(text: string): (r: (int, int))
    ensures IsInt64(r.0) && IsInt64(r.1)
    ensures ',' !in text ==> r.0 == r.1
    ensures r != (0, 0) ==> exists i :: 0 <= i < |text| && IsDigit(text[i])
  {
    match IndexAny(text, {','})
    case None =>
      (match Atoi(text)
       case None => (0, 0)
       case Some(n) => (n, n))
    case Some(i) =>
      var x, y := Atoi(text[..i]), Atoi(text[i + 1..]);
      if x.None? || y.None? then (0, 0) else (x.value, y.value)
  }

  /**
   * `span` reads a range only from text that is one int, or two ints either
   * side of its first comma: any part that is not an int gives (0, 0).
   */
  lemma {:induction false} SpanSyntax(text: string)
    ensures Span(text) != (0, 0) ==>
      || (',' !in text && IntSyntax(text))
      || exists i :: 0 <= i < |text| && text[i] == ',' && ',' !in text[..i]
           && IntSyntax(text[..i]) && IntSyntax(text[i + 1..])
  {
    match IndexAny(text, {','})
    case None =>
      AtoiSyntax(text);
    case Some(i) =>
      AtoiSyntax(text[..i]);
      AtoiSyntax(text[i + 1..]);
      assert forall j :: 0 <= j < i ==> text[..i][j] == text[j];
  }

  /** The numbers of a hunk are Go ints, as `span` returns them. */
  predicate Fits(h: Hunk)
  {
    IsInt64(h.oldStart) && IsInt64(h.oldEnd) && IsInt64(h.newStart) && IsInt64(h.newEnd)
  }

  /** What `applyRegion` makes of one line of diff output. */
  datatype Parsed =
    | Blank             // an empty line
    | Detail            // a content line: '<', '-' or '>' first
    | Unparsable        // none of 'a', 'c', 'd': only logged
    | Header(hunk: Hunk)

  /**
   * `line` is a header whose operation letter is at `i`, the first of any
   * operation letter in the line, with the ranges either side of it.
   */
  predicate HeaderAt(line: string, i: int, h: Hunk)
  {
    && 0 <= i < |line|
    && line[i] in OpChars
    && (forall j :: 0 <= j < i ==> line[j] !in OpChars)
    && h.op == OpOf(line[i])
    && (h.oldStart, h.oldEnd) == Span(line[..i])
    && (h.newStart, h.newEnd) == Span(line[i + 1..])
  }

  function Classify(line: string): (r: Parsed)
    ensures r.Blank? <==> |line| == 0
    ensures r.Detail? <==> |line| > 0 && line[0] in DetailMarks
    ensures r.Unparsable? <==>
      |line| > 0 && line[0] !in DetailMarks && forall j :: 0 <= j < |line| ==> line[j] !in OpChars
    ensures r.Header? ==> exists i :: HeaderAt(line, i, r.hunk)
    ensures r.Header? ==> Fits(r.hunk)
  {
    if |line| == 0 then Blank
    else if line[0] in DetailMarks then Detail
    else match IndexAny(line, OpChars)
      case None => Unparsable
      case Some(i) =>
        var h := Hunk(Span(line[..i]).0, Span(line[..i]).1, OpOf(line[i]),
                      Span(line[i + 1..]).0, Span(line[i + 1..]).1);
        assert HeaderAt(line, i, h);
        Header(h)
  }

  /** How a diff tool prints a range: "N" when it is one line, "N,M" otherwise. */
  function RangeText(a: nat, b: nat): string
  {
    if a == b then Itoa(a) else Itoa(a) + "," + Itoa(b)
  }

  /** The numbers of a hunk can be printed and read back as ints. */
  predicate Printable(h: Hunk)
  {
    && 0 <= h.oldStart <= MaxInt && 0 <= h.oldEnd <= MaxInt
    && 0 <= h.newStart <= MaxInt && 0 <= h.newEnd <= MaxInt
  }

  /** The header line a diff tool prints for a hunk. */
  function Render(h: Hunk): string
    requires Printable(h)
  {
    RangeText(h.oldStart, h.oldEnd) + [OpChar(h.op)] + RangeText(h.newStart, h.newEnd)
  }

  /** A printed range holds only digits and commas. */
  lemma {:induction false} RangeTextChars(a: nat, b: nat)
    ensures forall j :: 0 <= j < |RangeText(a, b)| ==>
      IsDigit(RangeText(a, b)[j]) || RangeText(a, b)[j] == ','
  {
    var x, y := Itoa(a), Itoa(b);
    if a != b {
      var s := x + "," + y;
      assert forall j :: 0 <= j < |x| ==> s[j] == x[j];
      assert forall j :: |x| + 1 <= j < |s| ==> s[j] == y[j - |x| - 1];
    }
  }

  /** `span` reads back every range a diff tool prints. */
  lemma {:induction false} SpanRangeText(a: nat, b: nat)
    requires a <= MaxInt && b <= MaxInt
    ensures Span(RangeText(a, b)) == (a, b)
  {
    var x, y := Itoa(a), Itoa(b);
    AtoiItoa(a);
    AtoiItoa(b);
    assert forall j :: 0 <= j < |x| ==> x[j] != ',' by {
      forall j | 0 <= j < |x| ensures x[j] != ',' {
        assert IsDigit(x[j]);
      }
    }
    if a == b {
      assert IndexAny(x, {','}).None?;
    } else {
      IndexAnyAfter(x, ',', y, {','});
      assert x + "," + y == x + [','] + y;
      assert (x + [','] + y)[..|x|] == x;
      assert (x + [','] + y)[|x| + 1..] == y;
    }
  }

  /** A printed header has no newline, starts with a digit and has no operation letter before its own. */
  lemma {:induction false} RenderShape(h: Hunk)
    requires Printable(h)
    ensures var p := RangeText(h.oldStart, h.oldEnd);
      && Render(h) == p + [OpChar(h.op)] + RangeText(h.newStart, h.newEnd)
      && (forall j :: 0 <= j < |p| ==> p[j] !in OpChars)
      && |p| > 0 && IsDigit(p[0])
      && '\n' !in Render(h)
  {
    var p, q := RangeText(h.oldStart, h.oldEnd), RangeText(h.newStart, h.newEnd);
    var line := Render(h);
    RangeTextChars(h.oldStart, h.oldEnd);
    RangeTextChars(h.newStart, h.newEnd);
    assert Itoa(h.oldStart)[0] == p[0];
    assert forall j :: 0 <= j < |line| ==> line[j] != '\n' by {
      forall j | 0 <= j < |line| ensures line[j] != '\n' {
        if j < |p| {
          assert line[j] == p[j];
        } else if j > |p| {
          assert line[j] == q[j - |p| - 1];
        }
      }
    }
  }

  /**
   * A line that is non-empty text free of operation letters and not starting
   * with a detail mark, an operation letter, more text: a header split there.
   */
  lemma {:induction false} ClassifyAt(p: string, c: char, q: string)
    requires |p| > 0 && p[0] !in DetailMarks
    requires forall j :: 0 <= j < |p| ==> p[j] !in OpChars
    requires c in OpChars
    ensures Classify(p + [c] + q) ==
      Header(Hunk(Span(p).0, Span(p).1, OpOf(c), Span(q).0, Span(q).1))
  {
    var line := p + [c] + q;
    IndexAnyAfter(p, c, q, OpChars);
    assert line[0] == p[0];
    assert line[..|p|] == p && line[|p|] == c && line[|p| + 1..] == q;
  }

  /**
   * A printed header is classified as that very hunk: `span` recovers both
   * ranges and the operation letter is found right after the old range.
   */
  lemma {:induction false} ClassifyRender(h: Hunk)
    requires Printable(h)
    requires h.op == Add ==> h.oldStart == h.oldEnd
    requires h.op == Delete ==> h.newStart == h.newEnd
    ensures Classify(Render(h)) == Header(h)
    ensures '\n' !in Render(h)
  {
    var p, q := RangeText(h.oldStart, h.oldEnd), RangeText(h.newStart, h.newEnd);
    RenderShape(h);
    assert p[0] !in DetailMarks;
    SpanRangeText(h.oldStart, h.oldEnd);
    SpanRangeText(h.newStart, h.newEnd);
    ClassifyAt(p, OpChar(h.op), q);
  }

  /** `span` on a few sample texts, bad numbers included. */
  lemma SpanExamples()
    ensures Span("12") == (12, 12)
    ensures Span("3,5") == (3, 5)
    ensures Span("3,") == (0, 0)
    ensures Span("x") == (0, 0)
    ensures Span("1,2,3") == (0, 0)
  {
    SpanSingleExamples();
    SpanPairExamples();
  }

  lemma SpanSingleExamples()
    ensures Span("12") == (12, 12)
    ensures Span("x") == (0, 0)
  {
    assert IndexAny("12", {','}) == None;
    assert DigitsValue("12") == 12 by {
      assert "12"[..1] == "1";
    }
    assert IndexAny("x", {','}) == None;
    assert !IsDigit('x');
  }

  lemma SpanPairExamples()
    ensures Span("3,5") == (3, 5)
    ensures Span("3,") == (0, 0)
    ensures Span("1,2,3") == (0, 0)
  {
    assert IndexAny("3,5", {','}) == Some(1);
    assert "3,5"[..1] == "3" && "3,5"[2..] == "5";
    assert IndexAny("3,", {','}) == Some(1);
    assert "3,"[2..] == "";
    assert IndexAny("1,2,3", {','}) == Some(1);
    assert "1,2,3"[2..] == "2,3";
    assert "2,3"[1] == ',' && !IsDigit(',');
  }
}

=== FILE: numbers.dfy ===
/**
 * Decimal integers as the diff header carries them: Go's strconv.Atoi on a
 * 64-bit platform, and the decimal rendering a diff tool prints.
 */
module Numbers {
  import opened Wrappers

  /** Bounds of Go's `int` on a 64-bit platform. */
  const MaxInt: int := 0x7fff_ffff_ffff_ffff
  const MinInt: int := -0x8000_0000_0000_0000

  /** 2^64: how far a 64-bit int jumps when it wraps round. */
  const Modulus: int := 0x1_0000_0000_0000_0000

  predicate IsInt64(x: int)
  {
    MinInt <= x <= MaxInt
  }

  /**
   * Two's-complement wrap-around: `x` moved into the int range by whole
   * multiples of 2^64.
   */
  function Wrap(x: int): (r: int)
    ensures IsInt64(r)
    ensures IsInt64(x) ==> r == x
    decreases if x < MinInt then MinInt - x else if x > MaxInt then x - MaxInt else 0
  {
    if x < MinInt then Wrap(x + Modulus)
    else if x > MaxInt then Wrap(x - Modulus)
    else x
  }

  /** Go's `x--` on a 64-bit int: the smallest int wraps round to the largest. */
  function Dec(x: int): (r: int)
    requires IsInt64(x)
    ensures IsInt64(r)
    ensures x > MinInt ==> r == x - 1
    ensures x == MinInt ==> r == MaxInt
  {
    Wrap(x - 1)
  }

  /** Decrementing a wrapped value is wrapping the decremented one. */
  lemma {:induction false} DecWrap(x: int)
    ensures Dec(Wrap(x)) == Wrap(x - 1)
    decreases if x < MinInt then MinInt - x else if x > MaxInt then x - MaxInt else 0
  {
    if x < MinInt {
      DecWrap(x + Modulus);
    } else if x > MaxInt + 1 {
      DecWrap(x - Modulus);
    } else if x == MaxInt + 1 {
      assert Wrap(x) == Wrap(MinInt);
    } else if x == MinInt {
      assert Wrap(x - 1) == Wrap(MaxInt);
    }
  }

  predicate IsDigit(c: char)
  {
    '0' <= c <= '9'
  }

  predicate AllDigits(s: string)
  {
    forall i :: 0 <= i < |s| ==> IsDigit(s[i])
  }

  function DigitValue(c: char): nat
    requires IsDigit(c)
  {
    (c as int) - ('0' as int)
  }

  /** The value of a string of decimal digits, most significant first. */
  function DigitsValue(s: string): nat
    requires AllDigits(s)
  {
    if |s| == 0 then 0 else 10 * DigitsValue(s[..|s| - 1]) + DigitValue(s[|s| - 1])
  }

  /**
   * The text strconv.Atoi accepts: an optional '+' or '-', then one or more
   * decimal digits and nothing else.
   */
  predicate IntSyntax(s: string)
  {
    if |s| > 0 && (s[0] == '-' || s[0] == '+') then |s| > 1 && AllDigits(s[1..])
    else |s| > 0 && AllDigits(s)
  }

  /**
   * strconv.Atoi: an optional '+' or '-' sign, then one or more decimal
   * digits and nothing else, whose value fits a 64-bit int. Anything else is a
   * syntax or range error, here None.
   */
  function Atoi(s: string): (r: Option<int>)
    ensures r.Some? ==> MinInt <= r.value <= MaxInt
    ensures r.Some? ==> exists i :: 0 <= i < |s| && IsDigit(s[i])
  {
    var signed := |s| > 0 && (s[0] == '-' || s[0] == '+');
    var digits := if signed then s[1..] else s;
    if |digits| == 0 || !AllDigits(digits) then None
    else
      assert IsDigit(s[|s| - 1]);
      var v := if signed && s[0] == '-' then -(DigitsValue(digits) as int) else DigitsValue(digits);
      if MinInt <= v <= MaxInt then Some(v) else None
  }

  /** Only text of that shape parses: a sign alone, a space or a trailing character is an error. */
  lemma {:induction false} AtoiSyntax(s: string)
    ensures Atoi(s).Some? ==> IntSyntax(s)
  {
  }

  /** Digits alone, leading zeros allowed, parse to their value when it fits. */
  lemma {:induction false} AtoiDigits(s: string)
    requires |s| > 0 && AllDigits(s)
    ensures DigitsValue(s) <= MaxInt ==> Atoi(s) == Some(DigitsValue(s))
    ensures DigitsValue(s) > MaxInt ==> Atoi(s) == None
  {
    assert IsDigit(s[0]);
  }

  function DigitChar(d: nat): (c: char)
    requires d < 10
    ensures IsDigit(c) && DigitValue(c) == d
  {
    ('0' as int + d) as char
  }

  /** The decimal digits of `n`, as fmt's "%d" prints a non-negative int. */
  function Itoa(n: nat): (s: string)
    ensures |s| > 0 && AllDigits(s)
  {
    if n < 10 then [DigitChar(n)] else Itoa(n / 10) + [DigitChar(n % 10)]
  }

  /** Reading back the digits of `n` gives `n`. */
  lemma {:induction false} DigitsValueItoa(n: nat)
    ensures DigitsValue(Itoa(n)) == n
  {
    var s := Itoa(n);
    if n >= 10 {
      DigitsValueItoa(n / 10);
      assert s[..|s| - 1] == Itoa(n / 10);
    }
  }

  /** Atoi parses what Itoa prints, for every value an int can hold. */
  lemma {:induction false} AtoiItoa(n: nat)
    requires n <= MaxInt
    ensures Atoi(Itoa(n)) == Some(n)
  {
    DigitsValueItoa(n);
    var s := Itoa(n);
    assert IsDigit(s[0]);
  }

  /** A minus sign in front negates, down to the smallest int. */
  lemma {:induction false} AtoiNegative(n: nat)
    requires n <= -MinInt
    ensures Atoi("-" + Itoa(n)) == Some(-(n as int))
  {
    DigitsValueItoa(n);
    var s := "-" + Itoa(n);
    assert s[1..] == Itoa(n);
  }

  /** A sign on its own, or a stray character, is a syntax error. */
  lemma AtoiRejects()
    ensures Atoi("") == None
    ensures Atoi("-") == None
    ensures Atoi("1,") == None
    ensures Atoi(" 7") == None
  {
    assert "1,"[1] == ',' && !IsDigit(',');
    assert " 7"[0] == ' ' && !IsDigit(' ');
  }

  /** A value one past the largest int is a range error. */
  lemma AtoiOverflows()
    ensures Atoi(Itoa(MaxInt + 1)) == None
  {
    DigitsValueItoa(MaxInt + 1);
    var s := Itoa(MaxInt + 1);
    assert IsDigit(s[0]);
  }
}

=== FILE: patch.dfy ===
/**
 * acmepipe's patching path: each diff header becomes an address-then-write
 * pair on the window, and the diff's lines are handled from last to first.
 * Also the all-at-once path, `writeOutput`.
 */
module Patch {
  import opened Text
  import opened Regions
  import opened Diff
  import opened Acme

  /** The ctl message that closes the current undo step, so the whole patch becomes one. */
  const UndoGroup: string := "mark\nnomark"

  /** The address `applyRegion` formats for a header's old lines. */
  function HunkAddress(h: Hunk): Address
  {
    if h.op == Add then AfterLine(h.oldStart) else Lines(h.oldStart, h.oldEnd)
  }

  /**
   * The address and data `applyRegion` passes to `write` for a header: an
   * add writes the new lines at the end of old line oldStart, a change writes
   * them over old lines oldStart..oldEnd, a delete writes nothing there.
   */
  function HunkWrite(h: Hunk, buf: seq<byte>): (w: (Address, seq<byte>))
    requires Fits(h)
    ensures h.op == Add ==> w.0 == AfterLine(h.oldStart)
    ensures h.op != Add ==> w.0 == Lines(h.oldStart, h.oldEnd)
    ensures h.op != Delete ==> w.1 == GoRegion(buf, h.newStart, h.newEnd)
    ensures h.op == Delete ==> w.1 == []
  {
    (HunkAddress(h), if h.op == Delete then [] else GoRegion(buf, h.newStart, h.newEnd))
  }

  /**
   * acmepipe's `write`: set the address, then write the data, unless the
   * address was rejected.
   */
  function Write(r: Run, a: Address, data: seq<byte>): (r': Run)
    requires !r.failed
    ensures r'.failed <==> Resolve(r.win.body, a).None?
    ensures EditsAfter(r.trace, r'.trace)
    ensures r'.failed ==> r'.trace == r.trace + [Addr(a)] && r'.win == r.win
    ensures !r'.failed ==>
      var q := Resolve(r.win.body, a).value;
      && r'.trace == r.trace + [Addr(a), Data(data)]
      && r'.win.body == Splice(r.win.body, q.0, q.1, data)
  {
    var r1 := Issue(r, Addr(a));
    if r1.failed then r1 else Issue(r1, Data(data))
  }

  /**
   * acmepipe's `applyRegion`: blank lines, detail lines and lines without an
   * operation letter make no call. A header writes its address: after old line
   * oldStart for an add, old lines oldStart..oldEnd otherwise. If the window
   * rejects it, that is the only call; if not, the data follows (the new lines
   * newStart..newEnd, or nothing for a delete) and replaces the addressed bytes.
   */
  function ApplyRegion(r: Run, line: string, buf: seq<byte>): (r': Run)
    requires !r.failed
    ensures !Classify(line).Header? ==> r' == r
    ensures Classify(line).Header? ==>
      var h := Classify(line).hunk;
      var a := if h.op == Add then AfterLine(h.oldStart) else Lines(h.oldStart, h.oldEnd);
      var data := if h.op == Delete then [] else GoRegion(buf, h.newStart, h.newEnd);
      && (Resolve(r.win.body, a).None? ==> r' == Run(r.trace + [Addr(a)], r.win, true))
      && (Resolve(r.win.body, a).Some? ==>
            var q := Resolve(r.win.body, a).value;
            && !r'.failed
            && r'.trace == r.trace + [Addr(a), Data(data)]
            && r'.win.body == Splice(r.win.body, q.0, q.1, data))
  {
    match Classify(line)
    case Header(h) =>
      var (a, data) := HunkWrite(h, buf);
      Write(r, a, data)
    case _ => r
  }

  /** The loop of `apply`: lines from last to first, stopping at the first failed call. */
  function ApplyLines(r: Run, lines: seq<string>, buf: seq<byte>): (r': Run)
    requires !r.failed
    ensures EditsAfter(r.trace, r'.trace)
    decreases |lines|
  {
    if |lines| == 0 then r
    else
      var r1 := ApplyRegion(r, lines[|lines| - 1], buf);
      if r1.failed then r1
      else
        var r2 := ApplyLines(r1, lines[..|lines| - 1], buf);
        EditsAfterTransitive(r.trace, r1.trace, r2.trace);
        r2
  }

  /**
   * acmepipe's `apply`: nothing for an empty diff; otherwise, unless each
   * change is to be its own undo step, one undo-grouping ctl message first,
   * then the diff's lines from last to first.
   */
  function Apply(w: Window, diff: string, buf: seq<byte>, mark: bool): (r: Run)
    ensures |diff| == 0 ==> r == Start(w)
    ensures |diff| > 0 && !mark ==> |r.trace| > 0 && r.trace[0] == Ctl(UndoGroup)
    ensures forall i :: (if |diff| > 0 && !mark then 1 else 0) <= i < |r.trace| ==> !r.trace[i].Ctl?
  {
    if |diff| == 0 then Start(w)
    else
      var r0 := if mark then Start(w) else Issue(Start(w), Ctl(UndoGroup));
      var r := ApplyLines(r0, Split(diff), buf);
      FirstCallKept(r0.trace, r.trace);
      r
  }

  /** Calls added after a trace leave its first call in place. */
  lemma {:induction false} FirstCallKept(earlier: seq<Call>, later: seq<Call>)
    requires EditsAfter(earlier, later)
    ensures |earlier| > 0 ==> |later| > 0 && later[0] == earlier[0]
    ensures forall i :: |earlier| <= i < |later| ==> !later[i].Ctl?
  {
    if |earlier| > 0 {
      assert later[0] == later[..|earlier|][0];
    }
  }

  /**
   * acmepipe's `patchOutput` once the diff of the body against the output is in
   * hand: empty output changes nothing.
   */
  function PatchOutput(w: Window, diff: string, output: seq<byte>, mark: bool): (r: Run)
    ensures |output| == 0 ==> r == Start(w)
    ensures |output| > 0 ==> r == Apply(w, diff, output, mark)
  {
    if |output| == 0 then Start(w) else Apply(w, diff, output, mark)
  }

  /**
   * acmepipe's `writeOutput`: replace the whole body with the output, unless the
   * output is empty or already equals the body.
   */
  function WriteOutput(w: Window, output: seq<byte>): (r: Run)
    ensures r.trace == [] <==> |output| == 0 || output == w.body
    ensures r.trace == [] ==> r.win == w
    ensures r.trace != [] ==> r.trace == [Addr(Everything), Data(output)] && !r.failed && r.win.body == output
  {
    if |output| == 0 || output == w.body then Start(w)
    else Write(Start(w), Everything, output)
  }

  /**
   * acmepipe's choice once the command has succeeded: the whole body at once
   * with -all, otherwise the patch; `diff` is what the diff tool printed for
   * the body against the output.
   */
  function Replace(w: Window, output: seq<byte>, diff: string, all: bool, mark: bool): (r: Run)
    ensures |output| == 0 ==> r == Start(w)
    ensures all && output == w.body ==> r == Start(w)
    ensures !all && |diff| == 0 ==> r == Start(w)
  {
    if all then WriteOutput(w, output) else PatchOutput(w, diff, output, mark)
  }

  /**
   * Handling lines `prefix + suffix` handles `suffix` first and, unless a
   * call failed there, `prefix` afterwards; once a call fails, no earlier
   * line is looked at.
   */
  lemma {:induction false} ApplyLinesAppend(r: Run, prefix: seq<string>, suffix: seq<string>, buf: seq<byte>)
    requires !r.failed
    ensures var rs := ApplyLines(r, suffix, buf);
      ApplyLines(r, prefix + suffix, buf) == if rs.failed then rs else ApplyLines(rs, prefix, buf)
    decreases |suffix|
  {
    var lines := prefix + suffix;
    if |suffix| == 0 {
      assert lines == prefix;
    } else {
      assert lines[|lines| - 1] == suffix[|suffix| - 1];
      assert lines[..|lines| - 1] == prefix + suffix[..|suffix| - 1];
      ApplyLinesLast(r, lines, buf);
      ApplyLinesLast(r, suffix, buf);
      var r1 := ApplyRegion(r, suffix[|suffix| - 1], buf);
      if !r1.failed {
        ApplyLinesAppend(r1, prefix, suffix[..|suffix| - 1], buf);
      }
    }
  }

  /** The loop's first step: the last line, then the rest unless that failed. */
  lemma {:induction false} ApplyLinesLast(r: Run, lines: seq<string>, buf: seq<byte>)
    requires !r.failed && |lines| > 0
    ensures var r1 := ApplyRegion(r, lines[|lines| - 1], buf);
      ApplyLines(r, lines, buf) == if r1.failed then r1 else ApplyLines(r1, lines[..|lines| - 1], buf)
  {
  }

  /** Lines that are not headers make no calls and change nothing. */
  lemma {:induction false} ApplyLinesInert(r: Run, lines: seq<string>, buf: seq<byte>)
    requires !r.failed
    requires forall i :: 0 <= i < |lines| ==> !Classify(lines[i]).Header?
    ensures ApplyLines(r, lines, buf) == r
    decreases |lines|
  {
    if |lines| > 0 {
      ApplyLinesInert(r, lines[..|lines| - 1], buf);
    }
  }
}

=== FILE: regions.dfy ===
/**
 * The byte range covering a 1-based inclusive range of lines (acmepipe's
 * `region`), first as a specification over newline offsets, then as the
 * two-loop scan the tool runs.
 */
module Regions {
  import opened Text
  import opened Numbers

  /**
   * The offset just past the k-th newline of `text`; |text| when the text has
   * fewer than k newlines; 0 when k <= 0.
   */
  function NewlineEnd(text: seq<byte>, k: int): (r: nat)
    ensures r <= |text|
    decreases |text|
  {
    if k <= 0 || |text| == 0 then 0
    else if text[0] == NL then 1 + NewlineEnd(text[1..], k - 1)
    else 1 + NewlineEnd(text[1..], k)
  }

  /**
   * What NewlineEnd finds: when the text has k newlines, the offset right
   * after the k-th of them; otherwise the end of the text.
   */
  lemma {:induction false} NewlineEndMeaning(text: seq<byte>, k: int)
    requires k >= 1
    ensures k <= NewlineCount(text) ==>
      var r := NewlineEnd(text, k);
      0 < r && text[r - 1] == NL && NewlineCount(text[..r]) == k
    ensures k > NewlineCount(text) ==> NewlineEnd(text, k) == |text|
    decreases |text|
  {
    if |text| > 0 {
      var t := text[1..];
      var r := NewlineEnd(text, k);
      if text[0] == NL {
        if k > 1 {
          NewlineEndMeaning(t, k - 1);
        }
        assert text[..r][1..] == t[..r - 1];
      } else {
        NewlineEndMeaning(t, k);
        assert text[..r][1..] == t[..r - 1];
      }
    }
  }

  lemma {:induction false} NewlineEndMonotonic(text: seq<byte>, j: int, k: int)
    requires j <= k
    ensures NewlineEnd(text, j) <= NewlineEnd(text, k)
    decreases |text|
  {
    if j > 0 && |text| > 0 {
      if text[0] == NL {
        NewlineEndMonotonic(text[1..], j - 1, k - 1);
      } else {
        NewlineEndMonotonic(text[1..], j, k);
      }
    }
  }

  /**
   * Scanning on from the j-th newline end for the newlines still missing
   * reaches the k-th newline end.
   */
  lemma {:induction false} NewlineEndResume(text: seq<byte>, j: int, k: int)
    requires j <= k
    ensures var a := NewlineEnd(text, j);
      NewlineEnd(text, k) == a + NewlineEnd(text[a..], k - NewlineCount(text[..a]))
    decreases |text|
  {
    if j <= 0 || |text| == 0 {
      ResumeBase(text, j, k);
    } else {
      var d := if text[0] == NL then 1 else 0;
      NewlineEndResume(text[1..], j - d, k - d);
      ResumeStep(text, j, k);
    }
  }

  /** NewlineEndResume when the j-th newline end is the start of the text. */
  lemma {:induction false} ResumeBase(text: seq<byte>, j: int, k: int)
    requires j <= 0 || |text| == 0
    ensures var a := NewlineEnd(text, j);
      NewlineEnd(text, k) == a + NewlineEnd(text[a..], k - NewlineCount(text[..a]))
  {
    assert NewlineEnd(text, j) == 0;
    assert text[0..] == text;
    assert NewlineCount(text[..0]) == 0;
  }

  /** The inductive step of NewlineEndResume: the claim for text[1..] gives it for text. */
  lemma {:induction false} ResumeStep(text: seq<byte>, j: int, k: int)
    requires 0 < j <= k && |text| > 0
    requires var d := if text[0] == NL then 1 else 0;
      var t := text[1..];
      var a' := NewlineEnd(t, j - d);
      NewlineEnd(t, k - d) == a' + NewlineEnd(t[a'..], k - d - NewlineCount(t[..a']))
    ensures var a := NewlineEnd(text, j);
      NewlineEnd(text, k) == a + NewlineEnd(text[a..], k - NewlineCount(text[..a]))
  {
    var d := if text[0] == NL then 1 else 0;
    var t := text[1..];
    var a' := NewlineEnd(t, j - d);
    var a := NewlineEnd(text, j);
    NewlineEndFirst(text, j);
    NewlineEndFirst(text, k);
    DropFirst(text, a);
  }

  /** NewlineEnd's own step, for a positive count on a non-empty text. */
  lemma {:induction false} NewlineEndFirst(text: seq<byte>, k: int)
    requires k > 0 && |text| > 0
    ensures NewlineEnd(text, k) == 1 + NewlineEnd(text[1..], k - (if text[0] == NL then 1 else 0))
  {
  }

  /** Splitting at a (past the first byte) seen from the text without its first byte. */
  lemma {:induction false} DropFirst(text: seq<byte>, a: int)
    requires 1 <= a <= |text|
    ensures NewlineCount(text[..a]) == (if text[0] == NL then 1 else 0) + NewlineCount(text[1..][..a - 1])
    ensures text[a..] == text[1..][a - 1..]
  {
    assert text[..a][1..] == text[1..][..a - 1];
  }

  /**
   * The bytes of lines start..end (1-based, inclusive) of `text`, newlines
   * included: from just past the (start-1)-th newline to just past the
   * end-th one, clipped to the text, and empty when end < start.
   */
  function Region(text: seq<byte>, start: int, end: int): (r: seq<byte>)
    ensures |r| <= |text|
    ensures end < start ==> r == []
  {
    if end < start then []
    else
      NewlineEndMonotonic(text, start - 1, end);
      text[NewlineEnd(text, start - 1)..NewlineEnd(text, end)]
  }

  /**
   * Region holds one newline per line asked for when the text has them all:
   * lines start..end, no more and no fewer.
   */
  lemma {:induction false} RegionNewlines(text: seq<byte>, start: int, end: int)
    requires 1 <= start <= end <= NewlineCount(text)
    ensures NewlineCount(Region(text, start, end)) == end - start + 1
    ensures Region(text, start, end)[|Region(text, start, end)| - 1] == NL
  {
    var a, b := NewlineEnd(text, start - 1), NewlineEnd(text, end);
    NewlineEndMonotonic(text, start - 1, end);
    NewlineEndMeaning(text, end);
    if start > 1 {
      NewlineEndMeaning(text, start - 1);
    } else {
      assert text[..a] == [];
    }
    assert text[..b] == text[..a] + text[a..b];
    NewlineCountAppend(text[..a], text[a..b]);
  }

  /** Newlines the first loop of `region` passes: never more than it set out to skip. */
  lemma {:induction false} SkippedCount(text: seq<byte>, k: int)
    ensures NewlineCount(text[..NewlineEnd(text, k)]) <= (if k > 0 then k else 0)
  {
    if k > 0 {
      NewlineEndMeaning(text, k);
      if k > NewlineCount(text) {
        assert text[..NewlineEnd(text, k)] == text;
      }
    } else {
      assert text[..NewlineEnd(text, k)] == [];
    }
  }

  /**
   * No decrement in `region` can wrap round: start is above the smallest int,
   * and `end` stays in range however many of the start-1 newlines are taken off it.
   */
  predicate NoWrap(start: int, end: int)
  {
    start > MinInt && end - (if start > 1 then start - 1 else 0) >= MinInt
  }

  /**
   * What `region` returns with Go's 64-bit ints. `start--` wraps at the
   * smallest int, and so does each `end--` of the first loop: skip Dec(start)
   * newlines, take the ones skipped off `end`, wrapping, then take that many
   * more lines. Wherever nothing wraps, this is Region.
   */
  function GoRegion(text: seq<byte>, start: int, end: int): (r: seq<byte>)
    requires IsInt64(start) && IsInt64(end)
    ensures |r| <= |text|
    ensures NoWrap(start, end) ==> r == Region(text, start, end)
  {
    var a := NewlineEnd(text, Dec(start));
    var e := Wrap(end - NewlineCount(text[..a]));
    RegionAgrees(text, start, end);
    text[a..a + NewlineEnd(text[a..], e)]
  }

  /** GoRegion's closed form is Region's when no decrement wraps. */
  lemma {:induction false} RegionAgrees(text: seq<byte>, start: int, end: int)
    requires IsInt64(start) && IsInt64(end)
    ensures var a := NewlineEnd(text, Dec(start));
      NoWrap(start, end) ==>
        && end - NewlineCount(text[..a]) >= MinInt
        && a + NewlineEnd(text[a..], end - NewlineCount(text[..a])) <= |text|
        && Region(text, start, end) == text[a..a + NewlineEnd(text[a..], end - NewlineCount(text[..a]))]
  {
    if NoWrap(start, end) {
      var a := NewlineEnd(text, start - 1);
      SkippedCount(text, start - 1);
      RegionScanEnd(text, start, end, a);
    }
  }

  /**
   * acmepipe's `region`: skip start-1 newlines, counting them off `end` as
   * well, then take bytes up to and including `end` more newlines.
   */
  method RegionScan(text: seq<byte>, start: int, end: int) returns (r: seq<byte>)
    requires IsInt64(start) && IsInt64(end)
    ensures r == GoRegion(text, start, end)
    ensures NoWrap(start, end) ==> r == Region(text, start, end)
  {
    var startByte, e := SkipLines(text, start, end);
    var endByte := TakeLines(text, startByte, e);
    r := text[startByte..endByte];
  }

  /**
   * The first loop of `region`: step past Dec(start) newlines, decrementing
   * `end`, with wrap-around, at each.
   */
  method SkipLines(text: seq<byte>, start: int, end: int) returns (i: nat, e: int)
    requires IsInt64(start) && IsInt64(end)
    ensures i == NewlineEnd(text, Dec(start)) <= |text|
    ensures e == Wrap(end - NewlineCount(text[..i]))
  {
    var s := Dec(start);
    e := end;
    i := 0;
    ghost var passed := 0;
    while i < |text| && s > 0
      invariant 0 <= i <= |text|
      invariant passed == NewlineCount(text[..i])
      invariant s == Dec(start) - passed
      invariant e == Wrap(end - passed)
      invariant NewlineEnd(text, Dec(start)) == i + NewlineEnd(text[i..], s)
    {
      ScanStep(text, i, s);
      if text[i] == NL {
        s := s - 1;
        DecWrap(end - passed);
        e := Dec(e);
        passed := passed + 1;
      }
      i := i + 1;
    }
  }

  /** The second loop of `region`: from `from`, step past `e` more newlines. */
  method TakeLines(text: seq<byte>, from: nat, e: int) returns (i: nat)
    requires from <= |text|
    ensures from <= i <= |text|
    ensures i == from + NewlineEnd(text[from..], e)
  {
    i := from;
    var left := e;
    while i < |text| && left > 0
      invariant from <= i <= |text|
      invariant from + NewlineEnd(text[from..], e) == i + NewlineEnd(text[i..], left)
    {
      ScanStep(text, i, left);
      if text[i] == NL {
        left := left - 1;
      }
      i := i + 1;
    }
  }

  /** One step of either scan loop: looking at byte i. */
  lemma {:induction false} ScanStep(text: seq<byte>, i: nat, k: int)
    requires i < |text| && k > 0
    ensures var d := if text[i] == NL then 1 else 0;
      && NewlineEnd(text[i..], k) == 1 + NewlineEnd(text[i + 1..], k - d)
      && NewlineCount(text[..i + 1]) == NewlineCount(text[..i]) + d
  {
    assert text[i..][1..] == text[i + 1..];
    NewlineCountAppend(text[..i], [text[i]]);
    assert text[..i + 1] == text[..i] + [text[i]];
  }

  /** The end offset the scan's second loop reaches is the one Region names. */
  lemma {:induction false} RegionScanEnd(text: seq<byte>, start: int, end: int, a: nat)
    requires a == NewlineEnd(text, start - 1)
    ensures a + NewlineEnd(text[a..], end - NewlineCount(text[..a])) ==
      (if end >= start then NewlineEnd(text, end) else a)
  {
    if end >= start {
      NewlineEndResume(text, start - 1, end);
    } else if start - 1 > 0 {
      NewlineEndMeaning(text, start - 1);
    } else {
      assert text[..a] == [];
    }
  }

  /** A newline-free stretch shifts the newline ends that follow it. */
  lemma {:induction false} NewlineEndSkip(u: seq<byte>, rest: seq<byte>, k: int)
    requires NL !in u
    requires k >= 1
    ensures NewlineEnd(u + rest, k) == |u| + NewlineEnd(rest, k)
    decreases |u|
  {
    if |u| == 0 {
      assert u + rest == rest;
    } else {
      assert (u + rest)[0] == u[0];
      assert (u + rest)[1..] == u[1..] + rest;
      NewlineEndSkip(u[1..], rest, k);
    }
  }

  /**
   * On a buffer of complete lines followed by any newline-free tail, the
   * k-th newline end is where line k+1 begins.
   */
  lemma {:induction false} NewlineEndOfLinesTail(ls: seq<seq<byte>>, tail: seq<byte>, k: int)
    requires AllLines(ls)
    requires 0 <= k <= |ls|
    ensures NewlineEnd(Join(ls) + tail, k) == |Join(ls[..k])|
    decreases |ls|
  {
    if k == 0 {
      assert ls[..0] == [];
    } else {
      var l := ls[0];
      assert IsLine(l);
      var u := l[..|l| - 1];
      var rest := Join(ls[1..]) + tail;
      assert l == u + [NL];
      assert Join(ls) + tail == u + ([NL] + rest) by {
        assert Join(ls) == l + Join(ls[1..]);
      }
      NewlineEndSkip(u, [NL] + rest, k);
      assert ([NL] + rest)[1..] == rest;
      NewlineEndOfLinesTail(ls[1..], tail, k - 1);
      assert ls[1..][..k - 1] == ls[..k][1..];
    }
  }

  /** On a buffer made of complete lines, the k-th newline end is where line k+1 begins. */
  lemma {:induction false} NewlineEndOfLines(ls: seq<seq<byte>>, k: int)
    requires AllLines(ls)
    requires 0 <= k <= |ls|
    ensures NewlineEnd(Join(ls), k) == |Join(ls[..k])|
  {
    NewlineEndOfLinesTail(ls, [], k);
    assert Join(ls) + [] == Join(ls);
  }

  /** The middle part of a three-way concatenation, sliced back out. */
  lemma {:induction false} MiddleSlice(x: seq<byte>, y: seq<byte>, z: seq<byte>)
    ensures (x + y + z)[|x|..|x| + |y|] == y
  {
  }

  /** Cutting a sequence of lines at two points and joining the three parts. */
  lemma {:induction false} JoinThreeParts(ls: seq<seq<byte>>, i: nat, j: nat)
    requires i <= j <= |ls|
    ensures Join(ls) == Join(ls[..i]) + Join(ls[i..j]) + Join(ls[j..])
    ensures Join(ls[..j]) == Join(ls[..i]) + Join(ls[i..j])
  {
    JoinCut(ls, j);
    JoinCut(ls[..j], i);
    assert ls[..j][..i] == ls[..i] && ls[..j][i..] == ls[i..j];
  }

  lemma {:induction false} JoinCut(ls: seq<seq<byte>>, i: nat)
    requires i <= |ls|
    ensures Join(ls) == Join(ls[..i]) + Join(ls[i..])
  {
    assert ls[..i] + ls[i..] == ls;
    JoinAppend(ls[..i], ls[i..]);
  }

  /**
   * On a buffer made of complete lines, the region of lines start..end is
   * exactly those lines.
   */
  lemma {:induction false} RegionOfLines(ls: seq<seq<byte>>, start: int, end: int)
    requires AllLines(ls)
    requires 1 <= start <= end + 1 && end <= |ls|
    ensures Region(Join(ls), start, end) == Join(ls[start - 1..end])
  {
    if end >= start {
      var x, y, z := Join(ls[..start - 1]), Join(ls[start - 1..end]), Join(ls[end..]);
      JoinThreeParts(ls, start - 1, end);
      NewlineEndOfLines(ls, start - 1);
      NewlineEndOfLines(ls, end);
      assert NewlineEnd(Join(ls), start - 1) == |x|;
      assert NewlineEnd(Join(ls), end) == |x| + |y|;
      MiddleSlice(x, y, z);
    } else {
      assert ls[start - 1..end] == [];
    }
  }

  /**
   * Region(text, k, k) is line k with its newline, on a text of complete lines
   * followed by a newline-free tail; one past the complete lines, it is the tail.
   */
  lemma {:induction false} RegionLine(ls: seq<seq<byte>>, tail: seq<byte>, k: int)
    requires AllLines(ls) && NL !in tail
    requires 1 <= k <= |ls| + 1
    ensures Region(Join(ls) + tail, k, k) == if k <= |ls| then ls[k - 1] else tail
  {
    NewlineEndOfLinesTail(ls, tail, k - 1);
    if k <= |ls| {
      RegionInnerLine(ls, tail, k);
    } else {
      RegionTailLine(ls, tail);
    }
  }

  lemma {:induction false} RegionInnerLine(ls: seq<seq<byte>>, tail: seq<byte>, k: int)
    requires AllLines(ls)
    requires 1 <= k <= |ls|
    ensures Region(Join(ls) + tail, k, k) == ls[k - 1]
  {
    var x, z := Join(ls[..k - 1]), Join(ls[k..]) + tail;
    NewlineEndOfLinesTail(ls, tail, k - 1);
    NewlineEndOfLinesTail(ls, tail, k);
    JoinThreeParts(ls, k - 1, k);
    assert ls[k - 1..k] == [ls[k - 1]];
    assert Join([ls[k - 1]]) == ls[k - 1] + Join([]);
    MiddleSlice(x, ls[k - 1], z);
    assert Join(ls) + tail == x + ls[k - 1] + z;
  }

  lemma {:induction false} RegionTailLine(ls: seq<seq<byte>>, tail: seq<byte>)
    requires AllLines(ls) && NL !in tail
    ensures Region(Join(ls) + tail, |ls| + 1, |ls| + 1) == tail
  {
    var text := Join(ls) + tail;
    NewlineEndOfLinesTail(ls, tail, |ls|);
    assert ls[..|ls|] == ls;
    JoinNewlineCount(ls);
    NewlineFree(tail);
    NewlineCountAppend(Join(ls), tail);
    NewlineEndMeaning(text, |ls| + 1);
  }

  /** Asking for at least as many lines as there are ends at the end of the text. */
  lemma {:induction false} NewlineEndPastLast(text: seq<byte>, k: int)
    requires k >= LineCount(text)
    ensures NewlineEnd(text, k) == |text|
    decreases |text|
  {
    if |text| > 0 {
      var t := text[1..];
      if |t| > 0 {
        assert text[|text| - 1] == t[|t| - 1];
      }
      if text[0] == NL {
        NewlineEndPastLast(t, k - 1);
      } else {
        NewlineEndPastLast(t, k);
      }
    }
  }

  /** Region(text, 1, n) is the whole text once n reaches the line count. */
  lemma {:induction false} RegionWhole(text: seq<byte>, n: int)
    requires n >= LineCount(text)
    ensures Region(text, 1, n) == text
  {
    NewlineEndPastLast(text, n);
    if n < 1 {
      assert |text| == 0;
    }
  }
}

=== FILE: scenarios.dfy ===
/**
 * Worked cases of the patch path on small buffers: one change, one add and
 * one delete, and the write a malformed header still makes.
 */
module Scenarios {
  import opened Wrappers
  import opened Text
  import opened Numbers
  import opened Regions
  import opened Diff
  import opened Acme
  import opened Patch
  import opened Correctness

  /** The lines "a\n", "b\n", "c\n", "X\n". */
  const A: seq<byte> := [97, 10]
  const B: seq<byte> := [98, 10]
  const C: seq<byte> := [99, 10]
  const X: seq<byte> := [88, 10]

  lemma {:induction false} JoinOne(l0: seq<byte>)
    ensures Join([l0]) == l0
  {
    assert [l0][1..] == [];
    assert l0 + [] == l0;
  }

  lemma {:induction false} JoinTwo(l0: seq<byte>, l1: seq<byte>)
    ensures Join([l0, l1]) == l0 + l1
  {
    assert [l0, l1][1..] == [l1];
    JoinOne(l1);
  }

  lemma {:induction false} JoinThree(l0: seq<byte>, l1: seq<byte>, l2: seq<byte>)
    ensures Join([l0, l1, l2]) == l0 + l1 + l2
  {
    assert [l0, l1, l2][1..] == [l1, l2];
    JoinTwo(l1, l2);
  }

  lemma {:induction false} DetailsInert(r: Run, details: seq<string>, buf: seq<byte>)
    requires !r.failed
    requires forall i :: 0 <= i < |details| ==> DetailLine(details[i])
    ensures ApplyLines(r, details, buf) == r
  {
    forall i | 0 <= i < |details| ensures !Classify(details[i]).Header? {
      assert DetailLine(details[i]);
    }
    ApplyLinesInert(r, details, buf);
  }

  /** Applying a one-hunk diff: the header followed by its detail lines. */
  lemma {:induction false} OneHeader(w: Window, header: string, details: seq<string>, buf: seq<byte>)
    requires '\n' !in header
    requires forall i :: 0 <= i < |details| ==> DetailLine(details[i])
    ensures Apply(w, Terminated([header] + details), buf, false) ==
      ApplyRegion(Issue(Start(w), Ctl(UndoGroup)), header, buf)
  {
    var r0 := Issue(Start(w), Ctl(UndoGroup));
    NoNewlineAppend([], header, details);
    assert [] + [header] + details == [header] + details;
    ApplyTerminated(w, [header] + details, buf, false);
    DetailsInert(r0, details, buf);
    ApplyLinesAppend(r0, [header], details, buf);
    assert ApplyLines(r0, [header], buf) == ApplyRegion(r0, header, buf);
  }

  /** A header whose address resolves makes an address call and a data call, both accepted. */
  lemma {:induction false} HeaderWrite(r: Run, line: string, buf: seq<byte>, h: Hunk, a: Address, data: seq<byte>, q: (nat, nat))
    requires !r.failed
    requires Classify(line) == Header(h) && HunkWrite(h, buf) == (a, data)
    requires Resolve(r.win.body, a) == Some(q)
    ensures ApplyRegion(r, line, buf) ==
      Run(r.trace + [Addr(a), Data(data)],
          Window(Splice(r.win.body, q.0, q.1, data), q.0 + |data|, q.0 + |data|), false)
  {
    HeaderIsWrite(r, line, buf, h);
    WriteAccepted(r, a, data, q);
  }

  /** Handling a header line is writing its hunk's address and data. */
  lemma {:induction false} HeaderIsWrite(r: Run, line: string, buf: seq<byte>, h: Hunk)
    requires !r.failed && Classify(line) == Header(h)
    ensures ApplyRegion(r, line, buf) == Write(r, HunkWrite(h, buf).0, HunkWrite(h, buf).1)
  {
  }

  /** A write whose address resolves: both calls are accepted and the data lands there. */
  lemma {:induction false} WriteAccepted(r: Run, a: Address, data: seq<byte>, q: (nat, nat))
    requires !r.failed && Resolve(r.win.body, a) == Some(q)
    ensures Write(r, a, data) ==
      Run(r.trace + [Addr(a), Data(data)],
          Window(Splice(r.win.body, q.0, q.1, data), q.0 + |data|, q.0 + |data|), false)
  {
    var r1 := Issue(r, Addr(a));
    assert r1 == Run(r.trace + [Addr(a)], Window(r.win.body, q.0, q.1), false);
  }

  lemma ChangeHeader()
    ensures Classify("2c2") == Header(Hunk(2, 2, Change, 2, 2))
  {
    var h := Hunk(2, 2, Change, 2, 2);
    ClassifyRender(h);
    assert Render(h) == "2c2";
  }

  lemma SecondLine()
    ensures GoRegion(A + X + C, 2, 2) == X
  {
    JoinThree(A, X, C);
    RegionLine([A, X, C], [], 2);
    assert Join([A, X, C]) + [] == Join([A, X, C]);
  }

  lemma SecondLineAddress()
    ensures Resolve(A + B + C, Lines(2, 2)) == Some((2, 4))
  {
    JoinThree(A, B, C);
    JoinNewlineCount([A, B, C]);
    NewlineEndOfLines([A, B, C], 1);
    NewlineEndOfLines([A, B, C], 2);
    assert [A, B, C][..1] == [A] && [A, B, C][..2] == [A, B];
    JoinOne(A);
    JoinTwo(A, B);
  }

  lemma ChangeDiff()
    ensures Terminated(["2c2", "< b", "---", "> X"]) == "2c2\n< b\n---\n> X\n"
    ensures forall i :: 0 <= i < |["< b", "---", "> X"]| ==> DetailLine(["< b", "---", "> X"][i])
  {
    var ds := ["< b", "---", "> X"];
    assert ["2c2", "< b", "---", "> X"][1..] == ds;
    assert ds[1..] == ["---", "> X"];
    assert ds[2..] == ["> X"];
    assert ["> X"][1..] == [];
  }

  lemma {:induction false} ChangeWrite(r: Run)
    requires !r.failed && r.win.body == A + B + C
    ensures ApplyRegion(r, "2c2", A + X + C) ==
      Run(r.trace + [Addr(Lines(2, 2)), Data(X)], Window(A + X + C, 4, 4), false)
  {
    ChangeHeader();
    SecondLine();
    SecondLineAddress();
    HeaderWrite(r, "2c2", A + X + C, Hunk(2, 2, Change, 2, 2), Lines(2, 2), X, (2, 4));
    SpliceMiddle(A, B, C, X);
  }

  /**
   * Old "a\nb\nc\n", new "a\nX\nc\n", diff "2c2": one undo-grouping message,
   * then old line 2 is addressed and "X\n" written over it.
   */
  lemma ChangeScenario()
    ensures var r := Apply(Window(A + B + C, 0, 0), "2c2\n< b\n---\n> X\n", A + X + C, false);
      && r.trace == [Ctl(UndoGroup), Addr(Lines(2, 2)), Data(X)]
      && !r.failed
      && r.win.body == A + X + C
  {
    var w := Window(A + B + C, 0, 0);
    var r0 := Issue(Start(w), Ctl(UndoGroup));
    ChangeDiff();
    OneHeader(w, "2c2", ["< b", "---", "> X"], A + X + C);
    ChangeWrite(r0);
  }

  /** Line 2 of "a\nb\n" ends at byte 4, the end of the body. */
  lemma AfterSecondLine()
    ensures Resolve(A + B, AfterLine(2)) == Some((4, 4))
  {
    JoinTwo(A, B);
    JoinNewlineCount([A, B]);
    NewlineEndOfLines([A, B], 2);
    assert [A, B][..2] == [A, B];
  }

  lemma AddHeader()
    ensures Classify("2a3") == Header(Hunk(2, 2, Add, 3, 3))
  {
    var h := Hunk(2, 2, Add, 3, 3);
    ClassifyRender(h);
    assert Render(h) == "2a3";
  }

  lemma ThirdLine()
    ensures GoRegion(A + B + C, 3, 3) == C
  {
    JoinThree(A, B, C);
    RegionLine([A, B, C], [], 3);
    assert Join([A, B, C]) + [] == Join([A, B, C]);
  }

  lemma {:induction false} AddWrite(r: Run)
    requires !r.failed && r.win.body == A + B
    ensures ApplyRegion(r, "2a3", A + B + C) ==
      Run(r.trace + [Addr(AfterLine(2)), Data(C)], Window(A + B + C, 6, 6), false)
  {
    AddHeader();
    ThirdLine();
    AfterSecondLine();
    HeaderWrite(r, "2a3", A + B + C, Hunk(2, 2, Add, 3, 3), AfterLine(2), C, (4, 4));
    SpliceAtEnd(A + B, C);
  }

  lemma AddDiff()
    ensures Terminated(["2a3", "> c"]) == "2a3\n> c\n"
    ensures forall i :: 0 <= i < |["> c"]| ==> DetailLine(["> c"][i])
  {
    assert ["2a3", "> c"][1..] == ["> c"];
    assert ["> c"][1..] == [];
  }

  /**
   * Old "a\nb\n", new "a\nb\nc\n", diff "2a3": the address is the empty
   * stretch after old line 2 and "c\n" is written there.
   */
  lemma AddScenario()
    ensures var r := Apply(Window(A + B, 0, 0), "2a3\n> c\n", A + B + C, false);
      && r.trace == [Ctl(UndoGroup), Addr(AfterLine(2)), Data(C)]
      && !r.failed
      && r.win.body == A + B + C
  {
    var w := Window(A + B, 0, 0);
    var r0 := Issue(Start(w), Ctl(UndoGroup));
    AddDiff();
    OneHeader(w, "2a3", ["> c"], A + B + C);
    AddWrite(r0);
  }

  lemma DeleteHeader()
    ensures Classify("2d1") == Header(Hunk(2, 2, Delete, 1, 1))
  {
    var h := Hunk(2, 2, Delete, 1, 1);
    ClassifyRender(h);
    assert Render(h) == "2d1";
  }

  lemma {:induction false} DeleteWrite(r: Run)
    requires !r.failed && r.win.body == A + B + C
    ensures ApplyRegion(r, "2d1", A + C) ==
      Run(r.trace + [Addr(Lines(2, 2)), Data([])], Window(A + C, 2, 2), false)
  {
    DeleteHeader();
    SecondLineAddress();
    HeaderWrite(r, "2d1", A + C, Hunk(2, 2, Delete, 1, 1), Lines(2, 2), [], (2, 4));
    SpliceMiddle(A, B, C, []);
    assert A + [] + C == A + C;
  }

  lemma DeleteDiff()
    ensures Terminated(["2d1", "< b"]) == "2d1\n< b\n"
    ensures forall i :: 0 <= i < |["< b"]| ==> DetailLine(["< b"][i])
  {
    assert ["2d1", "< b"][1..] == ["< b"];
    assert ["< b"][1..] == [];
  }

  /**
   * Old "a\nb\nc\n", new "a\nc\n", diff "2d1": old line 2 is addressed and
   * nothing is written over it.
   */
  lemma DeleteScenario()
    ensures var r := Apply(Window(A + B + C, 0, 0), "2d1\n< b\n", A + C, false);
      && r.trace == [Ctl(UndoGroup), Addr(Lines(2, 2)), Data([])]
      && !r.failed
      && r.win.body == A + C
  {
    var w := Window(A + B + C, 0, 0);
    var r0 := Issue(Start(w), Ctl(UndoGroup));
    DeleteDiff();
    OneHeader(w, "2d1", ["< b"], A + C);
    DeleteWrite(r0);
  }

  /** A text with no comma whose first character is not a digit or sign spans (0, 0). */
  lemma {:induction false} SpanNoNumber(text: string)
    requires |text| > 0 && !IsDigit(text[0]) && text[0] != '-' && text[0] != '+'
    requires forall j :: 0 <= j < |text| ==> text[j] != ','
    ensures Span(text) == (0, 0)
  {
    assert IndexAny(text, {','}) == None;
  }

  lemma MalformedOldRange()
    ensures Span("x,3") == (0, 0)
  {
    IndexAnyAfter("x", ',', "3", {','});
    assert "x" + [','] + "3" == "x,3";
    assert "x,3"[..1] == "x" && !IsDigit('x');
  }

  lemma NewRange()
    ensures Span("1,2") == (1, 2)
  {
    SpanRangeText(1, 2);
    assert Itoa(1) == "1" && Itoa(2) == "2";
  }

  lemma MalformedParts()
    ensures "x,3c1,2" == "x,3" + ['c'] + "1,2"
    ensures forall j :: 0 <= j < |"x,3"| ==> "x,3"[j] !in OpChars
    ensures "x,3"[0] !in DetailMarks
  {
    var p := "x,3";
    assert p[0] == 'x' && p[1] == ',' && p[2] == '3';
  }

  /** "x,3c1,2": the old range does not parse, so it reads as (0, 0). */
  lemma MalformedClassify()
    ensures Classify("x,3c1,2") == Header(Hunk(0, 0, Change, 1, 2))
  {
    MalformedOldRange();
    NewRange();
    MalformedParts();
    ClassifyAt("x,3", 'c', "1,2");
  }

  lemma TwoLinesWhole()
    ensures GoRegion(X + C, 1, 2) == X + C
  {
    JoinTwo(X, C);
    JoinNewlineCount([X, C]);
    RegionWhole(X + C, 2);
  }

  lemma MalformedWrite()
    ensures HunkWrite(Hunk(0, 0, Change, 1, 2), X + C) == (Lines(0, 0), X + C)
  {
    TwoLinesWhole();
  }

  /**
   * A header whose numbers do not parse is not skipped: its range reads as
   * (0, 0), which addresses the empty stretch before line 1, so the new
   * lines are written in front of the whole body.
   */
  lemma {:induction false} MalformedHeaderStillWrites(r: Run)
    requires !r.failed
    ensures ApplyRegion(r, "x,3c1,2", X + C) ==
      Run(r.trace + [Addr(Lines(0, 0)), Data(X + C)], Window(X + C + r.win.body, 4, 4), false)
  {
    MalformedClassify();
    MalformedWrite();
    FrontWrite(r, "x,3c1,2", X + C, Hunk(0, 0, Change, 1, 2), X + C);
  }

  /** A header that writes at lines 0,0 puts its data in front of the body. */
  lemma {:induction false} FrontWrite(r: Run, line: string, buf: seq<byte>, h: Hunk, data: seq<byte>)
    requires !r.failed
    requires Classify(line) == Header(h) && HunkWrite(h, buf) == (Lines(0, 0), data)
    ensures ApplyRegion(r, line, buf) ==
      Run(r.trace + [Addr(Lines(0, 0)), Data(data)], Window(data + r.win.body, |data|, |data|), false)
  {
    BeforeFirstLine(r.win.body, data);
    HeaderWrite(r, line, buf, h, Lines(0, 0), data, (0, 0));
  }

  /** Splicing at the very end appends. */
  lemma {:induction false} SpliceAtEnd(body: seq<byte>, data: seq<byte>)
    ensures Splice(body, |body|, |body|, data) == body + data
  {
    assert body[..|body|] == body && body[|body|..] == [];
  }

  /** Lines 0 through 0 are the empty stretch in front of any body. */
  lemma {:induction false} BeforeFirstLine(body: seq<byte>, data: seq<byte>)
    ensures Resolve(body, Lines(0, 0)) == Some((0, 0))
    ensures Splice(body, 0, 0, data) == data + body
  {
    assert body[..0] == [] && body[0..] == body;
  }

  /** The two sides of the first operation letter in diff's no-newline marker. */
  const MarkerLeft: string := "\\ No newline "
  const MarkerRight: string := "t end of file"

  /** The marker diff prints after a last line that has no newline. */
  const NoNewlineMarker: string := MarkerLeft + "a" + MarkerRight

  lemma MarkerLeftParts()
    ensures forall j :: 0 <= j < |MarkerLeft| ==> MarkerLeft[j] !in OpChars
    ensures Span(MarkerLeft) == (0, 0)
  {
    var t := "\\ No newline ";
    assert forall j :: 0 <= j < |t| ==> t[j] !in OpChars && t[j] != ',';
    SpanNoNumber(t);
  }

  lemma MarkerRightSpan()
    ensures Span(MarkerRight) == (0, 0)
  {
    var t := "t end of file";
    assert forall j :: 0 <= j < |t| ==> t[j] != ',';
    SpanNoNumber(t);
  }

  lemma MarkerSplit()
    ensures NoNewlineMarker == MarkerLeft + ['a'] + MarkerRight
  {
  }

  lemma MarkerClassify()
    ensures Classify(NoNewlineMarker) == Header(Hunk(0, 0, Add, 0, 0))
  {
    MarkerLeftParts();
    MarkerRightSpan();
    MarkerSplit();
    ClassifyNoNumbers(MarkerLeft, 'a', MarkerRight);
  }

  /** A header whose ranges both fail to parse reads as an empty range at line 0 on both sides. */
  lemma {:induction false} ClassifyNoNumbers(p: string, c: char, q: string)
    requires |p| > 0 && p[0] !in DetailMarks
    requires forall j :: 0 <= j < |p| ==> p[j] !in OpChars
    requires c in OpChars
    requires Span(p) == (0, 0) && Span(q) == (0, 0)
    ensures Classify(p + [c] + q) == Header(Hunk(0, 0, OpOf(c), 0, 0))
  {
    ClassifyAt(p, c, q);
  }

  /**
   * The no-newline marker reads as an add after line 0 of an empty range: it
   * makes an address call and an empty write, and leaves the body as it was.
   */
  lemma {:induction false} MarkerWritesNothing(r: Run, buf: seq<byte>)
    requires !r.failed
    ensures var r' := ApplyRegion(r, NoNewlineMarker, buf);
      && r'.trace == r.trace + [Addr(AfterLine(0)), Data([])]
      && !r'.failed
      && r'.win.body == r.win.body
  {
    MarkerClassify();
    assert GoRegion(buf, 0, 0) == [];
    assert Resolve(r.win.body, AfterLine(0)) == Some((0, 0));
    HeaderWrite(r, NoNewlineMarker, buf, Hunk(0, 0, Add, 0, 0), AfterLine(0), [], (0, 0));
    assert Splice(r.win.body, 0, 0, []) == r.win.body;
  }

  /**
   * `region` asked for lines 2..MinInt of "a\nb\nc\n": the line range is
   * empty, but the first loop's `end--` wraps round to the largest int, so
   * everything from line 2 on comes back.
   */
  lemma RegionEndWraps()
    ensures Region(A + B + C, 2, MinInt) == []
    ensures GoRegion(A + B + C, 2, MinInt) == B + C
  {
    var text := A + B + C;
    JoinThree(A, B, C);
    JoinOne(A);
    NewlineEndOfLines([A, B, C], 1);
    assert [A, B, C][..1] == [A];
    assert text[..2] == A && text[2..] == B + C;
    JoinNewlineCount([A]);
    JoinTwo(B, C);
    JoinNewlineCount([B, C]);
    NewlineEndPastLast(B + C, MaxInt);
  }

  /**
   * `region` asked for lines MinInt..2 of "a\nb\nc\n": the line range is
   * the first two lines, but `start--` wraps round to the largest int, so the
   * first loop runs to the end of the text and nothing comes back.
   */
  lemma RegionStartWraps()
    ensures Region(A + B + C, MinInt, 2) == A + B
    ensures GoRegion(A + B + C, MinInt, 2) == []
  {
    var text := A + B + C;
    JoinThree(A, B, C);
    JoinNewlineCount([A, B, C]);
    NewlineEndPastLast(text, MaxInt);
    NewlineEndOfLines([A, B, C], 2);
    assert [A, B, C][..2] == [A, B];
    JoinTwo(A, B);
    assert text[0..4] == A + B;
  }
}

=== FILE: text.dfy ===
/**
 * Byte buffers and diff text.
 *
 * A window body and the command's output are byte sequences whose lines are
 * delimited by newline bytes; the diff text is handled as a string, split on
 * newline characters the way Go's strings.Split does.
 */
module Text {
  import opened Wrappers

  newtype byte = x: int | 0 <= x < 256

  /** The newline byte, '\n'. */
  const NL: byte := 10

  /** Number of newline bytes in `s`. */
  function NewlineCount(s: seq<byte>): (n: nat)
    ensures n <= |s|
  {
    if |s| == 0 then 0 else (if s[0] == NL then 1 else 0) + NewlineCount(s[1..])
  }

  lemma {:induction false} NewlineCountAppend(a: seq<byte>, b: seq<byte>)
    ensures NewlineCount(a + b) == NewlineCount(a) + NewlineCount(b)
    decreases |a|
  {
    if |a| == 0 {
      assert a + b == b;
    } else {
      assert (a + b)[1..] == a[1..] + b;
      NewlineCountAppend(a[1..], b);
    }
  }

  lemma {:induction false} NewlineFree(s: seq<byte>)
    requires NL !in s
    ensures NewlineCount(s) == 0
  {
    if |s| > 0 {
      assert s[0] != NL;
      assert forall j :: 0 <= j < |s| - 1 ==> s[1..][j] == s[j + 1];
      NewlineFree(s[1..]);
    }
  }

  /** Number of lines of `s`: every newline ends one, and a final unterminated stretch is one more. */
  function LineCount(s: seq<byte>): nat
  {
    NewlineCount(s) + (if |s| > 0 && s[|s| - 1] != NL then 1 else 0)
  }

  /** A complete line: some non-newline bytes followed by exactly one newline. */
  predicate IsLine(l: seq<byte>)
  {
    |l| > 0 && l[|l| - 1] == NL && NL !in l[..|l| - 1]
  }

  predicate AllLines(ls: seq<seq<byte>>)
  {
    forall i :: 0 <= i < |ls| ==> IsLine(ls[i])
  }

  /** The bytes of a sequence of lines, laid end to end. */
  function Join(ls: seq<seq<byte>>): seq<byte>
  {
    if |ls| == 0 then [] else ls[0] + Join(ls[1..])
  }

  lemma {:induction false} JoinAppend(a: seq<seq<byte>>, b: seq<seq<byte>>)
    ensures Join(a + b) == Join(a) + Join(b)
    decreases |a|
  {
    if |a| == 0 {
      assert a + b == b;
    } else {
      assert (a + b)[1..] == a[1..] + b;
      JoinAppend(a[1..], b);
    }
  }

  /** Joining complete lines gives a buffer with exactly one newline per line. */
  lemma {:induction false} JoinNewlineCount(ls: seq<seq<byte>>)
    requires AllLines(ls)
    ensures NewlineCount(Join(ls)) == |ls|
    ensures |ls| > 0 ==> Join(ls)[|Join(ls)| - 1] == NL
    ensures LineCount(Join(ls)) == |ls|
    decreases |ls|
  {
    if |ls| > 0 {
      var l := ls[0];
      assert IsLine(l);
      JoinNewlineCount(ls[1..]);
      NewlineFree(l[..|l| - 1]);
      NewlineCountAppend(l[..|l| - 1], [NL]);
      assert l == l[..|l| - 1] + [NL];
      NewlineCountAppend(l, Join(ls[1..]));
    }
  }

  /**
   * Go's strings.IndexAny (and strings.IndexByte, for a one-element set): the
   * index of the first character of `s` that is in `chars`.
   */
  function IndexAny(s: string, chars: set<char>): (r: Option<nat>)
    ensures r.Some? ==> r.value < |s| && s[r.value] in chars
    ensures r.Some? ==> forall j :: 0 <= j < r.value ==> s[j] !in chars
    ensures r.None? ==> forall j :: 0 <= j < |s| ==> s[j] !in chars
  {
    if |s| == 0 then None
    else if s[0] in chars then Some(0)
    else match IndexAny(s[1..], chars)
      case None => None
      case Some(i) => Some(i + 1)
  }

  /** The first character of a set found after a prefix free of the set's characters. */
  lemma {:induction false} IndexAnyAfter(p: string, c: char, q: string, chars: set<char>)
    requires forall j :: 0 <= j < |p| ==> p[j] !in chars
    requires c in chars
    ensures IndexAny(p + [c] + q, chars) == Some(|p|)
  {
    var s := p + [c] + q;
    assert s[|p|] == c;
    assert forall j :: 0 <= j < |p| ==> s[j] == p[j];
  }

  /** Go's strings.Split(s, "\n"): the pieces between newline characters. */
  function Split(s: string): (r: seq<string>)
    ensures |r| >= 1
    ensures forall i :: 0 <= i < |r| ==> '\n' !in r[i]
    ensures JoinLines(r) == s
  {
    if |s| == 0 then [""]
    else if s[0] == '\n' then [""] + Split(s[1..])
    else
      var t := Split(s[1..]);
      [[s[0]] + t[0]] + t[1..]
  }

  /** Pieces joined with a newline between each two; Go's strings.Join(ls, "\n"). */
  function JoinLines(ls: seq<string>): string
    requires |ls| >= 1
  {
    if |ls| == 1 then ls[0] else ls[0] + "\n" + JoinLines(ls[1..])
  }

  /** Pieces each followed by a newline, as a line-oriented tool prints them. */
  function Terminated(ls: seq<string>): string
  {
    if |ls| == 0 then "" else ls[0] + "\n" + Terminated(ls[1..])
  }

  lemma {:induction false} SplitAfterPiece(p: string, rest: string)
    requires '\n' !in p
    ensures Split(p + "\n" + rest) == [p] + Split(rest)
    decreases |p|
  {
    if |p| == 0 {
      assert p + "\n" + rest == "\n" + rest;
      assert ("\n" + rest)[1..] == rest;
    } else {
      var s := p + "\n" + rest;
      assert s[0] == p[0];
      assert s[1..] == p[1..] + "\n" + rest;
      SplitAfterPiece(p[1..], rest);
      assert [p[0]] + p[1..] == p;
    }
  }

  /** Splitting newline-terminated pieces gives the pieces back, plus the empty piece after the last newline. */
  lemma {:induction false} SplitTerminated(ls: seq<string>)
    requires forall i :: 0 <= i < |ls| ==> '\n' !in ls[i]
    ensures Split(Terminated(ls)) == ls + [""]
    decreases |ls|
  {
    if |ls| > 0 {
      SplitAfterPiece(ls[0], Terminated(ls[1..]));
      SplitTerminated(ls[1..]);
      assert ls == [ls[0]] + ls[1..];
    }
  }
}

=== FILE: wrappers.dfy ===
/** Optional values, for parses and address resolutions that can fail. */
module Wrappers {

  datatype Option<+T> = None | Some(value: T)
}
